=== FILE: README.md ===
# Chain registry and chain RPC backends — a Dafny model

This project models the metadata layer of a multi-chain service:

- the **chain registry** (`ChainInfoManager`). It loads chain configuration rows into four lookup indices and an ordered list, and publishes all five together once the whole result set has been read;
- the **Solana backend**. It scans the type-length-value extension area of a Token-2022 mint, resolves token identity through the metadata account and the extension, and answers balance, allowance, transaction and slot queries;
- the **EVM backend**. It resolves an ERC-20 token through one batch of four `eth_call`s and answers balance, allowance, receipt and block-number queries;
- the **swap token store**. It keeps two caches keyed `chainName + "#" + value`, whose fetchers split the key back into its two parts before asking the database.

Files and modules:

| file | module | contents |
|---|---|---|
| `ints.dfy` | `Ints` | Go's fixed-width integers; `int32(x)`, `int64(x)` and `Uint64()` truncation |
| `errors.dfy` | `Errors` | `Option`, `Result` and the kinds of error passed around |
| `text.dfy` | `Text` | `strings.TrimSpace` (Unicode white space), `strings.ToLower` (ASCII), `strings.Split` |
| `strconv.dfy` | `Strconv` | `strconv.FormatInt` and `strconv.ParseInt` (base 10, bit sizes 32 and 64, clamping) |
| `indexing.dfy` | `Indexing` | the map a list builds under a key, and the "last element with this key" reference |
| `tokens.dfy` | `Tokens` | `TokenInfo`, the per-backend token cache, and the `IsTxSuccess` triple |
| `chain_info.dfy` | `ChainRegistry` | `ChainInfo`, `ChainInfoManager` (a class) and its load loop |
| `solana.dfy` | `Solana` | the extension scan (a method with a loop), `SolanaRpc` (a class holding the cache), the queries |
| `evm.dfy` | `Evm` | big-endian decoding, `EvmRpc` (a class holding the cache), the queries |
| `swap_token_info.dfy` | `SwapTokens` | key composition, the fetcher, the two getters over a value-level cache |

The node, the database and every foreign library appear as function-typed fields of a collaborator datatype: `SolanaNode`, `EvmNode` and `SwapStore`. These cover account fetches, batch calls, Borsh and Metaplex decoders, base58 parsing, address derivation, `util.IsHexStringZero`, `common.HexToAddress` and the store queries. Each model function calls them with exactly the arguments the Go code passes. Database rows reach `LoadAllChains` as a `ChainQuery`: a failed query, or a sequence of rows plus whether iteration ended in an error. Each row is either a failed scan or a scanned row together with whether dialling its client succeeded.

Three behaviours of the code are easy to misread, and the model keeps them as written:

- **Empty result.** A reload whose query succeeds but yields no usable row is not aborted. `LoadAllChains` has no guard against it and publishes empty indices (`EmptyResultPublishesEmpty`).
- **Disabled rows.** The `Disabled` column is loaded but never consulted. Every row that scans, and dials if its backend needs a client, is loaded.
- **EVM return values.** The `symbol` and `name` replies are not ABI-decoded. Their raw bytes become the strings, one character per byte. The `decimals` and `totalSupply` words are read as big-endian numbers, and the decimals keep only their low 32 bits.

## Model

| member | source | states |
|---|---|---|
| ChainRegistry.GetInt32ChainId | loader/chain_info.go:55-58 | a chain id spelling a 32-bit number reads as that number; one without a digit reads as 0 |
| ChainRegistry.GetInt64ChainId | loader/chain_info.go:60-63 | a chain id spelling a 64-bit number reads as that number; one without a digit reads as 0 |
| Strconv.ParseFormatRoundTrip | loader/chain_info.go:56-61 | parsing the decimal form of any in-range number gives the number back |
| Strconv.ParseInt | loader/chain_info.go:55-63 | the result always lies within the signed range of the requested bit size |
| ChainRegistry.TrimFieldsTrims | loader/chain_info.go:163-174 | all twelve string columns are trimmed after loading; trimming a trimmed row changes nothing |
| ChainRegistry.TrimFields | loader/chain_info.go:163-174 | each of the twelve string columns becomes its `TrimSpace` (the three nullable ones keep their validity flag); every other column is kept |
| Text.TrimSpaceIsInfix | loader/chain_info.go:163-174 | trimming removes only white space, and only from the two ends: the result is an infix with white space alone around it |
| ChainRegistry.AcceptRow | loader/chain_info.go:158-198 | a row is loaded iff it scanned, and also dialled when its backend is EVM or Starknet; the loaded chain keeps its id and network code and has trimmed chain id and name |
| ChainRegistry.AcceptedAreTrimmed | loader/chain_info.go:163-197 | every chain a load lists has all its string columns trimmed |
| ChainRegistry.SkippedRowLeavesNoTrace | loader/chain_info.go:158-188 | a row whose scan or client fails leaves the rest of the load exactly as if it were absent |
| ChainRegistry.NoUsableRowsLoadNothing | loader/chain_info.go:146-199 | rows none of which is usable build an empty list |
| ChainRegistry.EmptyResultPublishesEmpty | loader/chain_info.go:146-214 | a registry holding such a load has four empty indices: no guard against an empty result |
| ChainRegistry.VariantLookupKey | loader/chain_info.go:112-123 | any case variant of a stored key, padded with white space, normalises to the stored key's index entry |
| ChainRegistry.FormattedIsOwnKey | loader/chain_info.go:106-114 | the decimal form of a number survives the trim-and-lower normalisation unchanged |
| ChainRegistry.OnlyFormattedLowersToFormatted | loader/chain_info.go:109-114 | the only chain id that lowers to a decimal number is that decimal number itself |
| Indexing.IndexIsLastWithKey | loader/chain_info.go:193-197 | the map built row by row holds, for each key, the last listed chain with that key (last write wins) |
| Indexing.IndexKeys | loader/chain_info.go:193-197 | the keys of an index are exactly the keys of the listed chains |
| ChainRegistry.ChainInfoManager.constructor | loader/chain_info.go:77-87 | a new registry has four empty indices and an empty list |
| ChainRegistry.ChainInfoManager.GetChainInfoIds | loader/chain_info.go:89-98 | returns every key of the id index exactly once: exactly the ids of the listed chains |
| ChainRegistry.ChainInfoManager.GetChainInfoById | loader/chain_info.go:100-105 | found iff some listed chain has the id, and then it is the last such chain |
| ChainRegistry.ChainInfoManager.GetChainInfoByChainId | loader/chain_info.go:112-117 | the last listed chain whose lower-cased chain id equals the trimmed, lower-cased argument |
| ChainRegistry.ChainInfoManager.GetChainInfoByName | loader/chain_info.go:118-123 | the last listed chain whose lower-cased name equals the trimmed, lower-cased argument |
| ChainRegistry.ChainInfoManager.GetChainInfoByNetcode | loader/chain_info.go:124-129 | found iff some listed chain has the network code, and then it is the last such chain |
| ChainRegistry.ChainInfoManager.GetChainInfoByInt64ChainId | loader/chain_info.go:109-111 | the last listed chain whose chain id lowers to the decimal form of the number |
| ChainRegistry.ChainInfoManager.GetChainInfoByInt32ChainId | loader/chain_info.go:106-108 | the same for a 32-bit number |
| ChainRegistry.ChainInfoManager.GetAllChains | loader/chain_info.go:131-133 | the ordered list as last published, each of whose chains can be found in the id index |
| ChainRegistry.ChainInfoManager.LoadAllChains | loader/chain_info.go:135-217 | publishes iff the query and the iteration succeed; otherwise all five fields keep their contents; when published, the list is the accepted rows in order, the indices are built from it, and the counter is its length |
| ChainRegistry.ReadRows | loader/chain_info.go:146-199 | the row loop builds the accepted list in order, the four indices of that list, and a counter equal to its length |
| ChainRegistry.ChainIdLookupIgnoresCaseAndSpace | loader/chain_info.go:112-117 | looking up a stored chain id in any ASCII case with surrounding white space finds the same chain as the stored id |
| ChainRegistry.NameLookupIgnoresCaseAndSpace | loader/chain_info.go:118-123 | the same for names |
| ChainRegistry.Int64LookupSpellsChainId | loader/chain_info.go:109-117 | a chain found by a 64-bit number has exactly its decimal form as chain id, and that id reads back as the number |
| ChainRegistry.Int32LookupSpellsChainId | loader/chain_info.go:106-117 | the same for 32-bit numbers |
| ChainRegistry.IdIndexMatchesList | loader/chain_info.go:193-197 | the keys of the id index are exactly the ids in the list |
| Solana.NextEntry | rpc/solana.go:79-84 | the scan advances by at least four bytes per entry, so it terminates |
| Solana.ScanPositions | rpc/solana.go:77-84 | the visited headers start at the given offset, each lies whole in the buffer, each follows the previous entry, all but the last entry fit, and no whole header follows the last one: the path is complete |
| Solana.FindExtension | rpc/solana.go:75-87 | nothing when no whole header remains; a found payload lies within the buffer after its header |
| Solana.NoEntryOfTypeFindsNothing | rpc/solana.go:77-86 | with no entry of the wanted type on the scan path the result is nil |
| Solana.FirstEntryOfTypeDecides | rpc/solana.go:77-86 | the first entry of the wanted type decides: its payload if it fits, nil if it overruns |
| Solana.FoundIsFirstPayload | rpc/solana.go:78-82 | a result is exactly the in-bounds payload of an entry of the wanted type, with none of that type before it |
| Solana.ExtensionData | rpc/solana.go:75-87 | the loop computes the scan's result, nil for input shorter than four bytes, and never more than the buffer minus a header |
| Solana.ResolveMint | rpc/solana.go:106-168 | an unparseable mint address is the error; a resolved token is filed under the chain name and requested address, with no icon |
| Solana.MetadataAccountNamesToken | rpc/solana.go:119-168 | a decodable metadata account names the token (symbol, name, URI) when no extension decodes, with the mint's decimals and supply |
| Solana.ResolutionFailuresAreFatal | rpc/solana.go:111-148 | a failed metadata-address derivation, metadata decode, mint fetch or mint decode is the result, so nothing is cached |
| Solana.ResolvedTokenIsTheMint | rpc/solana.go:160-168 | a resolved token carries the chain name, the requested address, and the mint's decimals and supply |
| Solana.MissingMetadataGivesPlaceholders | rpc/solana.go:116-133 | without a metadata account or a decodable extension the token is "UNKNOWN"/"UNKNOWN" with an empty URI |
| Solana.MetadataErrorPropagates | rpc/solana.go:119-133 | a metadata-account error other than not-found is the result |
| Solana.ExtensionOverridesMetadata | rpc/solana.go:150-158 | for mint data past 166 bytes, a decodable type-19 extension supplies the symbol, name and URI |
| Solana.SolanaRpc.constructor | rpc/solana.go:35-40 | a new backend has an empty token cache |
| Solana.SolanaRpc.GetTokenInfo | rpc/solana.go:89-172 | native sentinels give SOL with 9 decimals and leave the cache alone; a cache hit is returned as cached; otherwise the result is the mint's resolution, cached iff it succeeded; the cache stays keyed by each token's chain and address |
| Solana.ZeroIfNotFound | rpc/solana.go:214-245 | an account that is not found reads as 0; any other error passes through |
| Solana.GetStrAccountInfo | rpc/solana.go:63-73 | the account at the trimmed address, or the address-parsing error |
| Solana.GetSplAccount | rpc/solana.go:174-208 | the decoded associated token account of the trimmed owner and mint; a parsing error of either address, a failed account derivation, or a failed fetch is the result, unchanged |
| Solana.GetBalance | rpc/solana.go:210-233 | never reports not-found; for a token, the token account's amount as `int64`, 0 when the account is missing, or the error |
| Solana.GetAllowance | rpc/solana.go:235-245 | never reports not-found; the token account's delegated amount as `int64`, 0 when the account is missing, or the error |
| Solana.InRangeAmountsReadBack | rpc/solana.go:210-245 | amounts below 2^63 are reported exactly: the balance is the amount and the allowance the delegated amount |
| Solana.NativeBalanceIsLamports | rpc/solana.go:214-222 | a native balance is the owner's lamports, 0 for a missing account, or the query's error |
| Solana.BalanceIgnoresPadding | rpc/solana.go:210-213 | white space around the owner or token address does not change the balance |
| Solana.AllowanceIgnoresSpenderAndPadding | rpc/solana.go:235-245 | the spender plays no part in the allowance, and padding around the addresses changes nothing |
| Solana.LargeAmountReadsNegative | rpc/solana.go:231 | a token amount of 2^63 or more reads back negative, through the `int64` conversion |
| Solana.IsTxSuccess | rpc/solana.go:247-261 | a signature-parse or query error is returned unchanged; no error iff the signature parses and the transaction exists; a missing transaction is "get receipt failed"; for an existing one, success iff its meta has no error and the block is its slot as `int64`; on error, false and 0 |
| Solana.GetLatestBlockNumber | rpc/solana.go:271-283 | the node's slot, or the node's error |
| Solana.Backend | rpc/solana.go:267-269 | the registry's Solana backend number |
| Evm.BigEndianOfEncode | rpc/evm.go:144-150 | a number written as a big-endian word that holds it reads back as itself |
| Evm.EncodeOfBigEndian | rpc/evm.go:144-150 | writing back what was read, at the same width, gives the original bytes |
| Evm.LeadingZeroIgnored | rpc/evm.go:144-150 | leading zero bytes do not change the number read |
| Evm.BytesToString | rpc/evm.go:157-161 | each byte becomes one character, in order |
| Evm.NoCallErrorIffAllReturned | rpc/evm.go:124-128 | the element check passes iff every element of the batch returned data |
| Evm.FirstFailureReported | rpc/evm.go:124-128 | the reported error is the first failing element's, wrapped with its method |
| Evm.TokenFromReplies | rpc/evm.go:152-154 | accepted iff the decimals are positive and the symbol is not empty, else "not found" |
| Evm.ResolveErc20 | rpc/evm.go:71-166 | a resolved token needed a successful batch in which all four calls returned data, and is filed under the chain name and requested address; once all calls returned, the result is the four replies' token, so the "not found" rule applies |
| Evm.AcceptedTokenFields | rpc/evm.go:152-163 | an accepted token has the chain and address, the symbol's and name's raw bytes as characters, decimals equal to `int32` of the low 64 bits, the supply as read, and no URL |
| Evm.WordsReadBack | rpc/evm.go:140-163 | big-endian words of any sufficient width, 32-byte ABI words among them, read back as decimals below 2^31 and as the supply |
| Evm.HugeDecimalsWrap | rpc/evm.go:160 | decimals of 2^32 are accepted and stored as 0, and 2^31 as a negative number, through `int32(decimals.Uint64())` |
| Evm.BatchFailureReported | rpc/evm.go:121-123 | a failed batch is the result, before any element is examined |
| Evm.CallFailureReported | rpc/evm.go:121-128 | when the batch goes through, the first failing call's error is the result, wrapped as a "get token error eth_call" error |
| Evm.EvmRpc.constructor | rpc/evm.go:28-35 | a new backend has an empty token cache |
| Evm.EvmRpc.GetTokenInfo | rpc/evm.go:49-166 | the zero address gives the chain's gas token without touching the cache; a cache hit is returned as cached; otherwise the result is the batch's resolution, cached iff it succeeded |
| Evm.BalanceIgnoresPadding | rpc/evm.go:181-232 | white space around the owner or token address does not change the balance, at the latest or a given block |
| Evm.BalanceAt | rpc/evm.go:181-232 | the zero address reads the native balance at the block; another token reads the bound contract's `balanceOf` at the block, or the binding's error |
| Evm.GetBalance | rpc/evm.go:210-232 | the native balance or the contract's balance at the latest block; a binding error is returned, not read as zero |
| Evm.GetBalanceAtBlockNumber | rpc/evm.go:181-208 | the native balance or the contract's balance at the given block; a binding error is returned, not read as zero |
| Evm.BalanceErrorsPassThrough | rpc/evm.go:181-232 | every balance error is one the node or the contract binding reported |
| Evm.GetAllowance | rpc/evm.go:168-179 | the contract's allowance from owner to spender, or the binding's error; the addresses are not trimmed |
| Evm.IsTxSuccess | rpc/evm.go:234-243 | a query error is returned unchanged; no error iff a receipt exists; a nil receipt is "get receipt failed"; success iff the status is successful |
| Evm.ReceiptBlockReported | rpc/evm.go:242 | a receipt's block number that fits in `int64` is reported as is |
| Evm.GetLatestBlockNumber | rpc/evm.go:245-252 | the node's block number, or the node's error |
| Evm.Backend | rpc/evm.go:45-47 | the registry's Ethereum backend number |
| SwapTokens.NewSwapTokenInfoManager | loader/swap_token_info.go:24-66 | two empty caches, each refreshing hourly and expiring entries after 30 minutes |
| SwapTokens.Fetch | loader/swap_token_info.go:27-37 | a key without exactly one separator is an "invalid key" error; any value fetched is a token |
| SwapTokens.ComposeKeySplits | loader/swap_token_info.go:28-29 | a key composed from two parts free of "#" splits back into exactly those parts |
| SwapTokens.SeparatorInPartBreaksKey | loader/swap_token_info.go:28-31 | a "#" inside either part gives the key at least two separators |
| SwapTokens.FetchComposedKey | loader/swap_token_info.go:28-36 | the fetcher asks the store about exactly the original chain name and value, and reports a miss as "token not found" |
| SwapTokens.FetchRejectsSeparatorInPart | loader/swap_token_info.go:28-31 | a key with "#" inside a part is invalid whatever the store holds |
| SwapTokens.CacheGet | loader/swap_token_info.go:70-73 | a held value is returned; otherwise the fetched value, held only when the fetch succeeded |
| SwapTokens.AsToken | loader/swap_token_info.go:71-79 | a getter finds a token iff the cache returned a token value |
| SwapTokens.GetByChainNameTokenAddr | loader/swap_token_info.go:68-80 | the lookup of chainName#tokenAddr in the address cache through the address query; the name cache is untouched |
| SwapTokens.GetByChainNameTokenName | loader/swap_token_info.go:82-94 | the lookup of chainName#tokenName in the name cache through the name query; the address cache is untouched |
| SwapTokens.LookupKeepsWellFormed | loader/swap_token_info.go:44-54 | lookups keep every held value a token under a two-part key |
| SwapTokens.LookupCleanParts | loader/swap_token_info.go:68-80 | with parts free of "#": a held token as held, otherwise the store's answer for exactly that pair, held when found |
| SwapTokens.LookupSeparatorInPart | loader/swap_token_info.go:68-73 | with "#" in a part: nothing, and the cache unchanged |
| SwapTokens.WrongTypeReadsNothing | loader/swap_token_info.go:74-79 | a held value that is not a token reads as nothing |
| SwapTokens.GettersAskTheirOwnQuery | loader/swap_token_info.go:44-94 | with clean parts and a key not held, the address getter returns the address query's answer for that pair and the name getter the name query's; neither touches the other cache |

## Left out

- Network and database I/O: the node, the JSON-RPC batch transport, the SQL queries and row scanning. These appear only as inputs. `GetAccountInfo`'s commitment level and data-slice options are not modelled.
- Locking (`sync.RWMutex`), contexts and cancellation. `LoadAllChains` assigns its five fields in one step at the end; concurrent readers are not modelled.
- Alerting and logging (`AlertText`, `log.Errorf`, `log.Println`): observational only.
- The `db` and `alerter` constructor arguments: the registry and the swap store receive their rows or queries as inputs instead.
- `GetClient`'s type assertion on the client handle (a panic on the wrong handle type) and the `Client()` accessors.
- `TokenInfoManager`, the per-backend token cache: loader/token_info.go is not part of this model. The cache is modelled as a map keyed by exact chain name and token address. Any key normalisation it performs is not modelled.
- `asynccache` internals (background refresh, idle expiry, single-flight loading) are time- and concurrency-driven and not shown. The cache is modelled as a map: a held value is returned, a missing key is fetched, and a successful fetch is held. The refresh and expiry periods are kept only as option values.
- Pointer aliasing: `ChainInfo` and `TokenInfo` are shared by pointer in the source and are values here.
- The two swap-store fetcher closures differ only in their query, so they are one `Fetch` over the query it is given.
- `ParseInt` is modelled for base 10 and bit sizes 32 and 64 only: the calls the registry makes.
- `strings.ToLower` is modelled on ASCII letters only; other letters are left unchanged.
- `string(b)` is modelled as one character per byte; UTF-8 decoding is not modelled.
- `hexutil` encoding and decoding are not modelled:
  - call data is the four-byte selector itself;
  - `hexutil.Decode(x.String())` of a `hexutil.Bytes` gives the bytes back, so the EVM decode-error branches cannot be taken in the model.
- ABI `Pack`, Borsh, Metaplex and token-account decoders, base58, program-derived and associated-token-account derivation, `util.IsHexStringZero` and `common.HexToAddress`/`HexToHash` are not modelled. Each is an abstract function of its input.
- Solana `receipt.Meta` is taken to be present; a missing `Meta` (a nil dereference in the source) is not modelled.
- txn/btc/common.go is not part of this model. It holds only a JSON encoding helper.

=== FILE: chain_info.dfy ===
/** The chain registry of loader/chain_info.go: chain configuration rows are
    loaded into four lookup indices (by id, by chain id, by name, by network
    code) and an ordered list, which are replaced together once the whole
    result set has been read. */
module ChainRegistry {
  import opened Ints
  import opened Errors
  import opened Text
  import opened Strconv
  import opened Indexing

  /** Go's `type Backend int32` and its iota-numbered constants. */
  type Backend = int32

  const EthereumBackend: Backend := 1
  const StarknetBackend: Backend := 2
  const SolanaBackend: Backend := 3
  const BitcoinBackend: Backend := 4
  const ZksliteBackend: Backend := 5
  const TonBackend: Backend := 6
  const CosmosBackend: Backend := 7
  const NetworkTypeBfc: Backend := 8

  /** `sql.NullString`. */
  datatype NullString = NullString(String: string, Valid: bool)

  /** The client handle attached to a loaded chain (Go's `Client interface{}`),
      built from the chain's RPC endpoint; nil for backends without a client. */
  datatype ClientHandle =
    | NoClient
    | EvmClient(endpoint: string)
    | StarknetProvider(endpoint: string)
    | SolanaClient(endpoint: string)

  datatype ChainInfo = ChainInfo(
    Id: int64,
    ChainId: string,
    RealChainId: string,
    Name: string,
    AliasName: string,
    Backend: Backend,
    Eip1559: int8,
    NetworkCode: int32,
    Icon: string,
    BlockInterval: int32,
    RpcEndPoint: string,
    ExplorerUrl: string,
    OfficialRpc: string,
    Disabled: int8,
    IsTestnet: int8,
    OrderWeight: int32,
    GasTokenName: string,
    GasTokenDecimal: int32,
    TransferContractAddress: NullString,
    DepositContractAddress: NullString,
    Layer1: NullString,
    Client: ClientHandle)

  /** Every `ParseInt` of a formatted number in range gives that number back. */
  lemma ParseFormatRoundTripAll(bitSize: nat)
    requires bitSize == 32 || bitSize == 64
    ensures forall n {:trigger FormatInt(n)} :: -HalfRange(bitSize) <= n < HalfRange(bitSize) ==>
      ParseInt(FormatInt(n), bitSize) == n
  {
    forall n | -HalfRange(bitSize) <= n < HalfRange(bitSize)
      ensures ParseInt(FormatInt(n), bitSize) == n
    {
      ParseFormatRoundTrip(n, bitSize);
    }
  }

  /** The chain id read as a 32-bit number: the number it spells, or 0 when it spells none. */
  function GetInt32ChainId(ci: ChainInfo): (r: int32)
    ensures forall n: int32 {:trigger FormatInt(n)} :: ci.ChainId == FormatInt(n) ==> r == n
    ensures (forall i :: 0 <= i < |ci.ChainId| ==> !IsDigit(ci.ChainId[i])) ==> r == 0
  {
    ParseFormatRoundTripAll(32);
    NotDecimalReadsZero(ci.ChainId, 32);
    ParseInt(ci.ChainId, 32)
  }

  /** The chain id read as a 64-bit number: the number it spells, or 0 when it spells none. */
  function GetInt64ChainId(ci: ChainInfo): (r: int64)
    ensures forall n: int64 {:trigger FormatInt(n)} :: ci.ChainId == FormatInt(n) ==> r == n
    ensures (forall i :: 0 <= i < |ci.ChainId| ==> !IsDigit(ci.ChainId[i])) ==> r == 0
  {
    ParseFormatRoundTripAll(64);
    NotDecimalReadsZero(ci.ChainId, 64);
    ParseInt(ci.ChainId, 64)
  }

  // ---------------------------------------------------------------------------
  // The four indices, specified as functions of the ordered list

  function IdKey(c: ChainInfo): int64 { c.Id }
  function ChainIdKey(c: ChainInfo): string { ToLower(c.ChainId) }
  function NameKey(c: ChainInfo): string { ToLower(c.Name) }
  function NetcodeKey(c: ChainInfo): int32 { c.NetworkCode }

  /** How a lookup normalises a string key before consulting an index. */
  function LookupKey(s: string): string { ToLower(TrimSpace(s)) }

  // ---------------------------------------------------------------------------
  // Loading rows

  /** One row of the chain query, as iteration delivers it: a scan that failed, or
      a scanned row together with whether dialling its RPC endpoint succeeded. */
  datatype ChainRow = ScanFailed | Scanned(chain: ChainInfo, dialOk: bool)

  /** The chain query: failed outright, or the rows read and whether iterating
      them ended with an error. */
  datatype ChainQuery = QueryFailed | Rows(rows: seq<ChainRow>, iterationFailed: bool)

  predicate IsTrimmedChain(c: ChainInfo) {
    && IsTrimmed(c.ChainId) && IsTrimmed(c.RealChainId) && IsTrimmed(c.Name)
    && IsTrimmed(c.AliasName) && IsTrimmed(c.Icon) && IsTrimmed(c.RpcEndPoint)
    && IsTrimmed(c.ExplorerUrl) && IsTrimmed(c.OfficialRpc) && IsTrimmed(c.GasTokenName)
    && IsTrimmed(c.TransferContractAddress.String) && IsTrimmed(c.DepositContractAddress.String)
    && IsTrimmed(c.Layer1.String)
  }

  /** Trims every string column of a scanned row. */
  function TrimFields(c: ChainInfo): (r: ChainInfo)
    ensures r == c.(ChainId := TrimSpace(c.ChainId), RealChainId := TrimSpace(c.RealChainId),
                    Name := TrimSpace(c.Name), AliasName := TrimSpace(c.AliasName), Icon := TrimSpace(c.Icon),
                    RpcEndPoint := TrimSpace(c.RpcEndPoint), ExplorerUrl := TrimSpace(c.ExplorerUrl),
                    OfficialRpc := TrimSpace(c.OfficialRpc), GasTokenName := TrimSpace(c.GasTokenName),
                    TransferContractAddress := TrimNullString(c.TransferContractAddress),
                    DepositContractAddress := TrimNullString(c.DepositContractAddress),
                    Layer1 := TrimNullString(c.Layer1))
  {
    ChainInfo(c.Id, TrimSpace(c.ChainId), TrimSpace(c.RealChainId), TrimSpace(c.Name),
      TrimSpace(c.AliasName), c.Backend, c.Eip1559, c.NetworkCode, TrimSpace(c.Icon), c.BlockInterval,
      TrimSpace(c.RpcEndPoint), TrimSpace(c.ExplorerUrl), TrimSpace(c.OfficialRpc), c.Disabled,
      c.IsTestnet, c.OrderWeight, TrimSpace(c.GasTokenName), c.GasTokenDecimal,
      TrimNullString(c.TransferContractAddress), TrimNullString(c.DepositContractAddress),
      TrimNullString(c.Layer1), c.Client)
  }

  /** Trimming leaves every string column trimmed, and changes nothing in a row
      that is already trimmed. */
  lemma TrimFieldsTrims(c: ChainInfo)
    ensures IsTrimmedChain(TrimFields(c))
    ensures IsTrimmedChain(c) ==> TrimFields(c) == c
  {
    TrimNull(c.Layer1); TrimNull(c.TransferContractAddress); TrimNull(c.DepositContractAddress);
    TrimString(c.ChainId); TrimString(c.RealChainId); TrimString(c.Name); TrimString(c.AliasName);
    TrimString(c.Icon); TrimString(c.RpcEndPoint); TrimString(c.ExplorerUrl); TrimString(c.OfficialRpc);
    TrimString(c.GasTokenName);
  }

  /** Trims the string of a `sql.NullString`, keeping its validity flag. */
  function TrimNullString(n: NullString): NullString {
    n.(String := TrimSpace(n.String))
  }

  lemma TrimString(s: string)
    ensures IsTrimmed(TrimSpace(s))
    ensures IsTrimmed(s) ==> TrimSpace(s) == s
  {
    if IsTrimmed(s) {
      TrimSpaceOfTrimmed(s);
    }
  }

  lemma TrimNull(n: NullString)
    ensures IsTrimmed(TrimNullString(n).String)
    ensures IsTrimmed(n.String) ==> TrimNullString(n) == n
  {
    TrimString(n.String);
  }

  /** Backends whose client is dialled, and whose row is dropped when dialling fails. */
  predicate NeedsDial(b: Backend) {
    b == EthereumBackend || b == StarknetBackend
  }

  /** The client attached to a trimmed chain. */
  function ClientFor(c: ChainInfo): ClientHandle {
    if c.Backend == EthereumBackend then EvmClient(c.RpcEndPoint)
    else if c.Backend == StarknetBackend then StarknetProvider(c.RpcEndPoint)
    else if c.Backend == SolanaBackend then SolanaClient(c.RpcEndPoint)
    else NoClient
  }

  /** What one row contributes to the list: nothing when its scan or its client
      failed, otherwise the trimmed chain with its client. The `Disabled` column
      plays no part. */
  function AcceptRow(row: ChainRow): (r: seq<ChainInfo>)
    ensures |r| <= 1
    ensures |r| == 1 <==> row.Scanned? && (row.dialOk || !NeedsDial(row.chain.Backend))
    ensures |r| == 1 ==> r[0].Id == row.chain.Id && r[0].ChainId == TrimSpace(row.chain.ChainId) &&
                         r[0].Name == TrimSpace(row.chain.Name) && r[0].NetworkCode == row.chain.NetworkCode
  {
    match row
    case ScanFailed => []
    case Scanned(raw, dialOk) =>
      var chain := TrimFields(raw);
      if NeedsDial(chain.Backend) && !dialOk then [] else [chain.(Client := ClientFor(chain))]
  }

  /** The list a load builds from its rows, in row order. */
  function Accepted(rows: seq<ChainRow>): (r: seq<ChainInfo>)
  {
    FlatMap(rows, AcceptRow)
  }

  /** Every string column of every chain in `cs` is trimmed. */
  predicate AllTrimmed(cs: seq<ChainInfo>) {
    forall i :: 0 <= i < |cs| ==> IsTrimmedChain(cs[i])
  }

  /** Every string column of every chain a load lists is trimmed. */
  lemma {:induction false} AcceptedAreTrimmed(rows: seq<ChainRow>)
    ensures AllTrimmed(Accepted(rows))
  {
    if rows != [] {
      var init := rows[..|rows| - 1];
      AcceptedAreTrimmed(init);
      AcceptRowTrimmed(rows[|rows| - 1]);
      assert Accepted(rows) == Accepted(init) + AcceptRow(rows[|rows| - 1]);
    }
  }

  lemma AcceptRowTrimmed(row: ChainRow)
    ensures AllTrimmed(AcceptRow(row))
  {
    if row.Scanned? {
      TrimFieldsTrims(row.chain);
    }
  }

  /** A row whose scan or client construction fails leaves no trace, and the rows
      around it load as if it were absent. */
  lemma SkippedRowLeavesNoTrace(before: seq<ChainRow>, row: ChainRow, after: seq<ChainRow>)
    requires row.ScanFailed? || (NeedsDial(row.chain.Backend) && !row.dialOk)
    ensures Accepted(before + [row] + after) == Accepted(before + after)
  {
    assert |AcceptRow(row)| == 0;
    FlatMapSkip(before, row, after, AcceptRow);
  }

  /** A result set without a usable row yields an empty list (and so empty indices). */
  lemma NoUsableRowsLoadNothing(rows: seq<ChainRow>)
    requires forall i :: 0 <= i < |rows| ==> AcceptRow(rows[i]) == []
    ensures Accepted(rows) == []
  {
    FlatMapOfEmpty(rows, AcceptRow);
  }

  // ---------------------------------------------------------------------------
  // Normalised string keys

  /** Any case variant of a stored key, padded with white space, normalises to the
      stored key's index entry. */
  lemma VariantLookupKey(stored: string, p: string, v: string, q: string)
    requires IsTrimmed(stored)
    requires AllSpace(p) && AllSpace(q) && ToLower(v) == ToLower(stored)
    ensures LookupKey(p + v + q) == ToLower(stored)
    ensures LookupKey(stored) == ToLower(stored)
  {
    SameLowerSameTrim(v, stored);
    TrimSpacePadded(p, v, q);
    var w := p + v + q;
    assert TrimSpace(w) == v;
    assert LookupKey(w) == ToLower(v);
    TrimSpaceOfTrimmed(stored);
    assert LookupKey(stored) == ToLower(stored);
  }

  /** A formatted number is its own lookup key. */
  lemma FormattedIsOwnKey(n: int)
    ensures LookupKey(FormatInt(n)) == FormatInt(n)
  {
    FormatIntIsNumeral(n);
    NumeralIsOwnKey(FormatInt(n));
  }

  /** The only string lowering to a formatted number is that number. */
  lemma OnlyFormattedLowersToFormatted(n: int, x: string)
    requires ToLower(x) == FormatInt(n)
    ensures x == FormatInt(n)
  {
    FormatIntIsNumeral(n);
    OnlyNumeralLowersToNumeral(x, FormatInt(n));
  }

  lemma FormatIntIsNumeral(n: int)
    ensures IsNumeral(FormatInt(n)) && IsTrimmed(FormatInt(n))
  {
    var s := FormatInt(n);
    forall i | 0 <= i < |s| ensures IsDigit(s[i]) || s[i] == '-' {
      assert IsDigit(s[i]) || (i == 0 && s[i] == '-');
    }
    assert s[0] == '-' || IsDigit(s[0]);
  }

  /** A string of digits and minus signs is its own lower-case form. */
  predicate IsNumeral(s: string) {
    forall i :: 0 <= i < |s| ==> IsDigit(s[i]) || s[i] == '-'
  }

  lemma NumeralIsOwnKey(s: string)
    requires IsTrimmed(s)
    ensures IsNumeral(s) ==> LookupKey(s) == s
  {
    TrimmedLookupKey(s);
    if IsNumeral(s) {
      NumeralIsLower(s);
    }
  }

  lemma TrimmedLookupKey(s: string)
    requires IsTrimmed(s)
    ensures LookupKey(s) == ToLower(s)
  {
    TrimSpaceOfTrimmed(s);
  }

  lemma NumeralIsLower(s: string)
    requires IsNumeral(s)
    ensures ToLower(s) == s
  {
    var l := ToLower(s);
    forall i | 0 <= i < |s| ensures l[i] == s[i] {
      assert IsDigit(s[i]) || s[i] == '-';
    }
  }

  lemma OnlyNumeralLowersToNumeral(x: string, s: string)
    requires IsNumeral(s) && ToLower(x) == s
    ensures x == s
  {
    forall i | 0 <= i < |x| ensures x[i] == s[i] {
      assert ToLowerChar(x[i]) == s[i];
      assert IsDigit(s[i]) || s[i] == '-';
    }
  }

  // ---------------------------------------------------------------------------
  // The manager

  class ChainInfoManager {
    var idChains: map<int64, ChainInfo>
    var chainIdChains: map<string, ChainInfo>
    var nameChains: map<string, ChainInfo>
    var netcodeChains: map<int32, ChainInfo>
    var allChains: seq<ChainInfo>

    /** The four indices are those the list builds, and every listed chain is trimmed. */
    ghost predicate Valid()
      reads this
    {
      && idChains == Index(allChains, IdKey)
      && chainIdChains == Index(allChains, ChainIdKey)
      && nameChains == Index(allChains, NameKey)
      && netcodeChains == Index(allChains, NetcodeKey)
      && AllTrimmed(allChains)
    }

    constructor ()
      ensures Valid() && allChains == []
      ensures idChains == map[] && chainIdChains == map[] && nameChains == map[] && netcodeChains == map[]
    {
      idChains, chainIdChains, nameChains, netcodeChains := map[], map[], map[], map[];
      allChains := [];
    }

    /** Every id in the id index, each once. */
    method GetChainInfoIds() returns (ids: seq<int64>)
      ensures |ids| == |idChains|
      ensures forall id :: id in ids <==> id in idChains
      ensures forall i, j :: 0 <= i < j < |ids| ==> ids[i] != ids[j]
      ensures Valid() ==> forall id :: id in ids <==> exists i :: 0 <= i < |allChains| && allChains[i].Id == id
    {
      ids := [];
      var rest := idChains.Keys;
      while rest != {}
        invariant rest <= idChains.Keys
        invariant forall id :: id in ids <==> id in idChains && id !in rest
        invariant forall i, j :: 0 <= i < j < |ids| ==> ids[i] != ids[j]
        invariant |ids| + |rest| == |idChains.Keys|
        decreases |rest|
      {
        var id :| id in rest;
        ids := ids + [id];
        rest := rest - {id};
      }
      if Valid() {
        IndexKeys(allChains, IdKey);
      }
    }

    function GetChainInfoById(id: int64): (r: Option<ChainInfo>)
      reads this
      ensures Valid() ==> r == LastWithKey(allChains, IdKey, id)
    {
      IndexIsLastWithKey(allChains, IdKey, id);
      Find(idChains, id)
    }

    function GetChainInfoByChainId(chainId: string): (r: Option<ChainInfo>)
      reads this
      ensures Valid() ==> r == LastWithKey(allChains, ChainIdKey, LookupKey(chainId))
    {
      var k := LookupKey(chainId);
      IndexIsLastWithKey(allChains, ChainIdKey, k);
      Find(chainIdChains, k)
    }

    function GetChainInfoByName(name: string): (r: Option<ChainInfo>)
      reads this
      ensures Valid() ==> r == LastWithKey(allChains, NameKey, LookupKey(name))
    {
      var k := LookupKey(name);
      IndexIsLastWithKey(allChains, NameKey, k);
      Find(nameChains, k)
    }

    function GetChainInfoByNetcode(netcode: int32): (r: Option<ChainInfo>)
      reads this
      ensures Valid() ==> r == LastWithKey(allChains, NetcodeKey, netcode)
    {
      IndexIsLastWithKey(allChains, NetcodeKey, netcode);
      Find(netcodeChains, netcode)
    }

    /** Looks a chain up by the canonical decimal form of a 64-bit chain id. */
    function GetChainInfoByInt64ChainId(chainId: int64): (r: Option<ChainInfo>)
      reads this
      ensures Valid() ==> r == LastWithKey(allChains, ChainIdKey, FormatInt(chainId))
    {
      var k := FormatInt(chainId);
      FormattedIsOwnKey(chainId);
      GetChainInfoByChainId(k)
    }

    /** Looks a chain up by the canonical decimal form of a 32-bit chain id. */
    function GetChainInfoByInt32ChainId(chainId: int32): (r: Option<ChainInfo>)
      reads this
      ensures Valid() ==> r == LastWithKey(allChains, ChainIdKey, FormatInt(chainId))
    {
      var k := FormatInt(chainId);
      FormattedIsOwnKey(chainId);
      GetChainInfoByChainId(k)
    }

    /** The ordered list, as last published; each listed chain can be found by its id. */
    function GetAllChains(): (r: seq<ChainInfo>)
      reads this
      ensures r == allChains
      ensures Valid() ==> forall i :: 0 <= i < |r| ==> r[i].Id in idChains
    {
      IndexKeys(allChains, IdKey);
      allChains
    }

    /** Reloads the registry from one run of the chain query. A failed query, or
        rows that end in an iteration error, leave all five fields as they were;
        otherwise all five are replaced, together, by what the rows build. */
    method LoadAllChains(q: ChainQuery) returns (published: bool, counter: nat)
      requires Valid()
      modifies this
      ensures Valid()
      ensures published <==> q.Rows? && !q.iterationFailed
      ensures !published ==>
        && allChains == old(allChains) && idChains == old(idChains)
        && chainIdChains == old(chainIdChains) && nameChains == old(nameChains)
        && netcodeChains == old(netcodeChains)
      ensures published ==> allChains == Accepted(q.rows) && counter == |allChains|
    {
      if q.QueryFailed? {
        return false, 0;
      }
      var ids, chainIds, names, netcodes, all;
      ids, chainIds, names, netcodes, all, counter := ReadRows(q.rows);
      AcceptedAreTrimmed(q.rows);
      if q.iterationFailed {
        return false, counter;
      }
      idChains, chainIdChains, nameChains, netcodeChains, allChains := ids, chainIds, names, netcodes, all;
      published := true;
    }
  }

  /** The row loop of `LoadAllChains`: the list and the four indices built in
      local variables, one accepted row at a time. */
  method ReadRows(rows: seq<ChainRow>)
    returns (ids: map<int64, ChainInfo>, chainIds: map<string, ChainInfo>,
             names: map<string, ChainInfo>, netcodes: map<int32, ChainInfo>,
             all: seq<ChainInfo>, counter: nat)
    ensures all == Accepted(rows) && counter == |all|
    ensures ids == Index(all, IdKey) && chainIds == Index(all, ChainIdKey)
    ensures names == Index(all, NameKey) && netcodes == Index(all, NetcodeKey)
  {
    ids, chainIds, names, netcodes, all, counter := map[], map[], map[], map[], [], 0;
    for i := 0 to |rows|
      invariant all == Accepted(rows[..i])
      invariant ids == Index(all, IdKey) && chainIds == Index(all, ChainIdKey)
      invariant names == Index(all, NameKey) && netcodes == Index(all, NetcodeKey)
      invariant counter == |all|
    {
      FlatMapSnoc(rows, i, AcceptRow);
      match rows[i]
      case ScanFailed =>
      case Scanned(raw, dialOk) =>
        var chain := TrimFields(raw);
        if NeedsDial(chain.Backend) && !dialOk {
          continue;
        }
        chain := chain.(Client := ClientFor(chain));
        assert AcceptRow(rows[i]) == [chain];
        IndexSnoc(all, chain, IdKey);
        IndexSnoc(all, chain, ChainIdKey);
        IndexSnoc(all, chain, NameKey);
        IndexSnoc(all, chain, NetcodeKey);
        ids := ids[chain.Id := chain];
        chainIds := chainIds[ToLower(chain.ChainId) := chain];
        names := names[ToLower(chain.Name) := chain];
        netcodes := netcodes[chain.NetworkCode := chain];
        all := all + [chain];
        counter := counter + 1;
    }
    assert rows[..|rows|] == rows;
  }

  function Find<K(==)>(m: map<K, ChainInfo>, k: K): (r: Option<ChainInfo>)
    ensures r.Some? <==> k in m
    ensures r.Some? ==> r.value == m[k]
  {
    if k in m then Some(m[k]) else None
  }

  /** Looking up a stored chain id in any letter case, with any white space around
      it, finds the same chain as looking up the stored id itself. */
  lemma ChainIdLookupIgnoresCaseAndSpace(m: ChainInfoManager, i: nat, p: string, v: string, q: string)
    requires m.Valid() && i < |m.allChains|
    requires AllSpace(p) && AllSpace(q) && ToLower(v) == ToLower(m.allChains[i].ChainId)
    ensures m.GetChainInfoByChainId(p + v + q) == m.GetChainInfoByChainId(m.allChains[i].ChainId)
    ensures m.GetChainInfoByChainId(p + v + q).Some?
  {
    VariantLookupKey(m.allChains[i].ChainId, p, v, q);
    assert ChainIdKey(m.allChains[i]) == LookupKey(p + v + q);
  }

  /** The same for names. */
  lemma NameLookupIgnoresCaseAndSpace(m: ChainInfoManager, i: nat, p: string, v: string, q: string)
    requires m.Valid() && i < |m.allChains|
    requires AllSpace(p) && AllSpace(q) && ToLower(v) == ToLower(m.allChains[i].Name)
    ensures m.GetChainInfoByName(p + v + q) == m.GetChainInfoByName(m.allChains[i].Name)
    ensures m.GetChainInfoByName(p + v + q).Some?
  {
    VariantLookupKey(m.allChains[i].Name, p, v, q);
    assert NameKey(m.allChains[i]) == LookupKey(p + v + q);
  }

  /** A chain found by a numeric chain id spells exactly that number, and reads back as it. */
  lemma Int64LookupSpellsChainId(m: ChainInfoManager, chainId: int64)
    requires m.Valid()
    ensures var r := m.GetChainInfoByInt64ChainId(chainId);
      r.Some? ==> r.value.ChainId == FormatInt(chainId) && GetInt64ChainId(r.value) == chainId
  {
    var r := m.GetChainInfoByInt64ChainId(chainId);
    if r.Some? {
      OnlyFormattedLowersToFormatted(chainId, r.value.ChainId);
    }
  }

  lemma Int32LookupSpellsChainId(m: ChainInfoManager, chainId: int32)
    requires m.Valid()
    ensures var r := m.GetChainInfoByInt32ChainId(chainId);
      r.Some? ==> r.value.ChainId == FormatInt(chainId) && GetInt32ChainId(r.value) == chainId
  {
    var r := m.GetChainInfoByInt32ChainId(chainId);
    if r.Some? {
      OnlyFormattedLowersToFormatted(chainId, r.value.ChainId);
    }
  }

  /** A registry listing what a result set without a usable row builds has four
      empty indices: nothing guards against publishing an empty result. */
  lemma EmptyResultPublishesEmpty(m: ChainInfoManager, rows: seq<ChainRow>)
    requires m.Valid() && m.allChains == Accepted(rows)
    requires forall i :: 0 <= i < |rows| ==> AcceptRow(rows[i]) == []
    ensures m.allChains == []
    ensures m.idChains == map[] && m.chainIdChains == map[] && m.nameChains == map[] && m.netcodeChains == map[]
  {
    NoUsableRowsLoadNothing(rows);
  }

  /** The id index holds exactly the ids of the listed chains. */
  lemma IdIndexMatchesList(m: ChainInfoManager)
    requires m.Valid()
    ensures m.idChains.Keys == set i | 0 <= i < |m.allChains| :: m.allChains[i].Id
  {
    IndexKeys(m.allChains, IdKey);
  }
}

=== FILE: errors.dfy ===
/** Outcomes shared by every component: an optional value (Go's `(v, ok)`
    pair or a nil pointer), a value-or-error result (Go's `(v, err)` pair),
    and the kinds of error the core produces or passes on. */
module Errors {

  datatype Option<+T> = None | Some(value: T)

  datatype Result<+T> = Ok(value: T) | Err(error: Error)

  datatype Error =
    /** `rpc.ErrNotFound`: the Solana node has no such account. */
    | ErrNotFound
    /** Any other failure reported by a node or a client library. */
    | RpcError(msg: string)
    /** A base58 address or signature that does not parse. */
    | ParseError(input: string)
    /** A program-derived address that could not be derived. */
    | DeriveError
    /** A binary decoder (Borsh, Metaplex) that rejected its input. */
    | DecodeError(what: string)
    /** An error this code builds itself with `fmt.Errorf`. */
    | Failed(msg: string)
    /** `fmt.Errorf("<prefix> %w", cause)`. */
    | Wrapped(prefix: string, cause: Error)
}

=== FILE: evm.dfy ===
/** The EVM backend of rpc/evm.go: ERC-20 token resolution through one batch of
    four `eth_call`s, with its cache, and the balance, allowance, receipt and
    block-number queries. The node and the go-ethereum helpers are the
    collaborators of `EvmNode`. */
module Evm {
  import opened Ints
  import opened Errors
  import opened Text
  import opened Tokens
  import ChainRegistry

  /** A 20-byte account address as `common.HexToAddress` produces it. */
  datatype Address = Address(bytes: seq<byte>)
  datatype Hash = Hash(bytes: seq<byte>)

  /** An ERC-20 binding (`erc20.NewErc20`) for a contract address. */
  datatype Erc20Contract = Erc20Contract(at: Address)

  /** One element of a JSON-RPC batch: the method, the contract called, the
      call data (the packed four-byte selector) and the block tag. */
  datatype BatchElem = BatchElem(Method: string, To: string, Data: seq<byte>, Block: string)

  /** What the node reports for one batch element: the returned bytes, or the
      element's error. */
  datatype CallOutcome = Returned(data: seq<byte>) | CallError(error: Error)

  /** The `status` and `blockNumber` of a transaction receipt. */
  datatype Receipt = Receipt(Status: uint64, BlockNumber: int)

  /** What the node and go-ethereum answer, as functions of their inputs. A block
      of `None` is the latest block (a nil `*big.Int`). */
  datatype EvmNode = EvmNode(
    isHexStringZero: string -> bool,
    hexToAddress: string -> Address,
    hexToHash: string -> Hash,
    batchError: seq<BatchElem> -> Option<Error>,
    ethCall: BatchElem -> CallOutcome,
    balanceAt: (Address, Option<int64>) -> Result<nat>,
    newErc20: Address -> Result<Erc20Contract>,
    balanceOf: (Erc20Contract, Address, Option<int64>) -> Result<nat>,
    allowance: (Erc20Contract, Address, Address) -> Result<nat>,
    transactionReceipt: Hash -> Result<Option<Receipt>>,
    blockNumber: Result<uint64>)

  /** The ERC-20 function selectors `Pack` produces for the four views. */
  const SymbolSelector: seq<byte> := [0x95, 0xd8, 0x9b, 0x41]
  const DecimalsSelector: seq<byte> := [0x31, 0x3c, 0xe5, 0x67]
  const NameSelector: seq<byte> := [0x06, 0xfd, 0xde, 0x03]
  const TotalSupplySelector: seq<byte> := [0x18, 0x16, 0x0d, 0xdd]

  /** `ReceiptStatusSuccessful`. */
  const ReceiptStatusSuccessful: uint64 := 1

  // ---------------------------------------------------------------------------
  // Big-endian numbers

  function Pow256(n: nat): (p: nat)
    ensures p >= 1
  {
    if n == 0 then 1 else 256 * Pow256(n - 1)
  }

  /** `new(big.Int).SetBytes(b)`: the bytes read as a big-endian unsigned number. */
  function BigEndian(b: seq<byte>): (n: nat)
    ensures n < Pow256(|b|)
  {
    if b == [] then 0 else BigEndian(b[..|b| - 1]) * 256 + b[|b| - 1]
  }

  /** `n` as a big-endian word of `len` bytes (an ABI return word for `len == 32`). */
  function Encode(n: nat, len: nat): (b: seq<byte>)
    ensures |b| == len
  {
    if len == 0 then [] else Encode(n / 256, len - 1) + [n % 256]
  }

  /** Reading back an encoded number that fits gives the number. */
  lemma {:induction false} BigEndianOfEncode(n: nat, len: nat)
    requires n < Pow256(len)
    ensures BigEndian(Encode(n, len)) == n
  {
    if len > 0 {
      var b := Encode(n, len);
      assert b[..|b| - 1] == Encode(n / 256, len - 1);
      BigEndianOfEncode(n / 256, len - 1);
    }
  }

  /** Encoding what was read back at the same width gives the bytes back. */
  lemma {:induction false} EncodeOfBigEndian(b: seq<byte>)
    ensures Encode(BigEndian(b), |b|) == b
  {
    if b != [] {
      var init := b[..|b| - 1];
      EncodeOfBigEndian(init);
      var n := BigEndian(b);
      assert n / 256 == BigEndian(init) && n % 256 == b[|b| - 1];
      assert b == init + [b[|b| - 1]];
    }
  }

  /** Leading zero bytes do not change the number. */
  lemma {:induction false} LeadingZeroIgnored(b: seq<byte>)
    ensures BigEndian([0] + b) == BigEndian(b)
  {
    if b != [] {
      assert ([0] + b)[..|b|] == [0] + b[..|b| - 1];
      LeadingZeroIgnored(b[..|b| - 1]);
    }
  }

  // ---------------------------------------------------------------------------
  // Token resolution

  /** `string(b)`: each byte taken as one character. */
  function BytesToString(b: seq<byte>): (s: string)
    ensures |s| == |b|
    ensures forall i :: 0 <= i < |b| ==> s[i] == b[i] as char
  {
    seq(|b|, i requires 0 <= i < |b| => b[i] as char)
  }

  /** The gas token of the chain, for the zero address. */
  function GasToken(chain: ChainRegistry.ChainInfo, tokenAddr: string): TokenInfo {
    TokenInfo(chain.GasTokenName, chain.Name, tokenAddr, chain.GasTokenDecimal, chain.AliasName, 0,
              chain.ExplorerUrl, "")
  }

  /** An `eth_call` of a view at the latest block. */
  function EthCall(tokenAddr: string, selector: seq<byte>): BatchElem {
    BatchElem("eth_call", tokenAddr, selector, "latest")
  }

  /** The batch `GetTokenInfo` sends: symbol, decimals, name and total supply. */
  function TokenBatch(tokenAddr: string): seq<BatchElem> {
    [EthCall(tokenAddr, SymbolSelector), EthCall(tokenAddr, DecimalsSelector),
     EthCall(tokenAddr, NameSelector), EthCall(tokenAddr, TotalSupplySelector)]
  }

  /** The error of the first element, from `i` on, that failed, wrapped with the
      element's method. */
  function FirstCallError(node: EvmNode, be: seq<BatchElem>, i: nat): Option<Error>
    decreases |be| - i
  {
    if i >= |be| then None
    else match node.ethCall(be[i])
      case CallError(e) => Some(Wrapped("get token error " + be[i].Method, e))
      case Returned(_) => FirstCallError(node, be, i + 1)
  }

  /** No element failed exactly when every element returned data. */
  lemma {:induction false} NoCallErrorIffAllReturned(node: EvmNode, be: seq<BatchElem>, i: nat)
    ensures FirstCallError(node, be, i).None? <==>
            forall k :: i <= k < |be| ==> node.ethCall(be[k]).Returned?
    decreases |be| - i
  {
    if i < |be| {
      NoCallErrorIffAllReturned(node, be, i + 1);
    }
  }

  /** The reported error is that of the first failing element. */
  lemma {:induction false} FirstFailureReported(node: EvmNode, be: seq<BatchElem>, i: nat, k: nat)
    requires i <= k < |be| && node.ethCall(be[k]).CallError?
    requires forall j :: i <= j < k ==> node.ethCall(be[j]).Returned?
    ensures FirstCallError(node, be, i) == Some(Wrapped("get token error " + be[k].Method, node.ethCall(be[k]).error))
    decreases k - i
  {
    if i < k {
      FirstFailureReported(node, be, i + 1, k);
    }
  }

  /** The bytes an element returned. */
  function ReturnData(node: EvmNode, e: BatchElem): seq<byte> {
    match node.ethCall(e)
    case Returned(data) => data
    case CallError(_) => []
  }

  /** The token the four replies describe: rejected as "not found" unless the
      decimals are positive and the symbol is not empty. */
  function TokenFromReplies(chainName: string, tokenAddr: string, symbol: seq<byte>, decimalsWord: seq<byte>,
                            name: seq<byte>, supplyWord: seq<byte>): (r: Result<TokenInfo>)
    ensures r.Ok? <==> BigEndian(decimalsWord) > 0 && |symbol| > 0
    ensures r.Err? ==> r.error == Failed("not found")
  {
    var decimals := BigEndian(decimalsWord);
    if decimals <= 0 || |symbol| == 0 then Err(Failed("not found"))
    else Ok(TokenInfo(BytesToString(symbol), chainName, tokenAddr, Int32Trunc(Low64(decimals)),
                      BytesToString(name), BigEndian(supplyWord), "", ""))
  }

  /** The token a contract address resolves to when it is neither the zero
      address nor cached. */
  function ResolveErc20(node: EvmNode, chainName: string, tokenAddr: string): (r: Result<TokenInfo>)
    ensures r.Ok? ==> node.batchError(TokenBatch(tokenAddr)).None?
    ensures r.Ok? ==> forall k :: 0 <= k < 4 ==> node.ethCall(TokenBatch(tokenAddr)[k]).Returned?
    ensures r.Ok? ==> CacheKey(r.value) == (chainName, tokenAddr)
    ensures var be := TokenBatch(tokenAddr);
      node.batchError(be).None? && (forall k :: 0 <= k < 4 ==> node.ethCall(be[k]).Returned?) ==>
        r == TokenFromReplies(chainName, tokenAddr, ReturnData(node, be[0]), ReturnData(node, be[1]),
                              ReturnData(node, be[2]), ReturnData(node, be[3]))
  {
    var be := TokenBatch(tokenAddr);
    NoCallErrorIffAllReturned(node, be, 0);
    match node.batchError(be)
    case Some(e) => Err(e)
    case None =>
      match FirstCallError(node, be, 0)
      case Some(e) => Err(e)
      case None =>
        TokenFromReplies(chainName, tokenAddr, ReturnData(node, be[0]), ReturnData(node, be[1]),
                         ReturnData(node, be[2]), ReturnData(node, be[3]))
  }

  /** An accepted token carries the raw symbol and name bytes as text, the low
      32 bits of the decimals' low 64 bits, the supply as read, and no URL. */
  lemma AcceptedTokenFields(chainName: string, tokenAddr: string, symbol: seq<byte>, decimalsWord: seq<byte>,
                            name: seq<byte>, supplyWord: seq<byte>)
    ensures var r := TokenFromReplies(chainName, tokenAddr, symbol, decimalsWord, name, supplyWord);
      r.Ok? ==> && CacheKey(r.value) == (chainName, tokenAddr)
                && |r.value.TokenName| == |symbol| && |r.value.FullName| == |name|
                && (forall i :: 0 <= i < |symbol| ==> r.value.TokenName[i] == symbol[i] as char)
                && (forall i :: 0 <= i < |name| ==> r.value.FullName[i] == name[i] as char)
                && r.value.Decimals == Int32Trunc(Low64(BigEndian(decimalsWord)))
                && r.value.TotalSupply == BigEndian(supplyWord) && r.value.Url == ""
  {
  }

  /** Big-endian words of any width wide enough for them, 32-byte ABI words among
      them, read back as the decimals below 2^31 and the supply they encode. */
  lemma WordsReadBack(chainName: string, tokenAddr: string, symbol: seq<byte>, name: seq<byte>,
                      decimals: nat, supply: nat, width: nat)
    requires 0 < decimals < 0x8000_0000 && |symbol| > 0
    requires decimals < Pow256(width) && supply < Pow256(width)
    ensures var r := TokenFromReplies(chainName, tokenAddr, symbol, Encode(decimals, width), name, Encode(supply, width));
      r.Ok? && r.value.Decimals == decimals && r.value.TotalSupply == supply
  {
    BigEndianOfEncode(decimals, width);
    BigEndianOfEncode(supply, width);
  }

  /** As written, a decimals word reading 2^32 passes the positivity check and
      is then stored as 0 decimals, because `int32(decimals.Uint64())` keeps only
      the low 32 bits; 2^31 is likewise stored as a negative number. */
  lemma HugeDecimalsWrap(chainName: string, tokenAddr: string, symbol: seq<byte>, decimalsWord: seq<byte>,
                         name: seq<byte>, supplyWord: seq<byte>)
    requires |symbol| > 0
    ensures var r := TokenFromReplies(chainName, tokenAddr, symbol, decimalsWord, name, supplyWord);
      && (BigEndian(decimalsWord) == TWO_32 ==> r.Ok? && r.value.Decimals == 0)
      && (BigEndian(decimalsWord) == 0x8000_0000 ==> r.Ok? && r.value.Decimals < 0)
  {
  }

  /** A failed batch is reported as is, before any element is looked at. */
  lemma BatchFailureReported(node: EvmNode, chainName: string, tokenAddr: string)
    requires node.batchError(TokenBatch(tokenAddr)).Some?
    ensures ResolveErc20(node, chainName, tokenAddr) == Err(node.batchError(TokenBatch(tokenAddr)).value)
  {
  }

  /** When the batch goes through, the first failing call decides the error. */
  lemma CallFailureReported(node: EvmNode, chainName: string, tokenAddr: string, k: nat)
    requires node.batchError(TokenBatch(tokenAddr)).None?
    requires k < 4 && node.ethCall(TokenBatch(tokenAddr)[k]).CallError?
    requires forall j :: 0 <= j < k ==> node.ethCall(TokenBatch(tokenAddr)[j]).Returned?
    ensures ResolveErc20(node, chainName, tokenAddr) ==
      Err(Wrapped("get token error eth_call", node.ethCall(TokenBatch(tokenAddr)[k]).error))
  {
    FirstFailureReported(node, TokenBatch(tokenAddr), 0, k);
    assert TokenBatch(tokenAddr)[k].Method == "eth_call";
    assert "get token error " + "eth_call" == "get token error eth_call";
  }

  class EvmRpc {
    const chainInfo: ChainRegistry.ChainInfo
    var tokens: TokenCache

    ghost predicate Valid()
      reads this
    {
      CacheCoherent(tokens)
    }

    /** `NewEvmRpc`: a backend for the chain with an empty token cache. */
    constructor (chain: ChainRegistry.ChainInfo)
      ensures chainInfo == chain && tokens == map[] && Valid()
    {
      chainInfo := chain;
      tokens := map[];
    }

    /** `GetTokenInfo`: the chain's gas token for the zero address, a cached token
        as cached, and otherwise the token the batch describes, which is cached
        when, and only when, resolution succeeds. */
    method GetTokenInfo(node: EvmNode, tokenAddr: string) returns (r: Result<TokenInfo>)
      requires Valid()
      modifies this
      ensures Valid()
      ensures node.isHexStringZero(tokenAddr) ==>
        r == Ok(GasToken(chainInfo, tokenAddr)) && tokens == old(tokens)
      ensures !node.isHexStringZero(tokenAddr) && (chainInfo.Name, tokenAddr) in old(tokens) ==>
        r == Ok(old(tokens)[(chainInfo.Name, tokenAddr)]) && tokens == old(tokens)
      ensures !node.isHexStringZero(tokenAddr) && (chainInfo.Name, tokenAddr) !in old(tokens) ==>
        && r == ResolveErc20(node, chainInfo.Name, tokenAddr)
        && tokens == if r.Ok? then old(tokens)[(chainInfo.Name, tokenAddr) := r.value] else old(tokens)
    {
      if node.isHexStringZero(tokenAddr) {
        return Ok(GasToken(chainInfo, tokenAddr));
      }
      var key := (chainInfo.Name, tokenAddr);
      if key in tokens {
        return Ok(tokens[key]);
      }
      var be: seq<BatchElem> := [];
      be := be + [EthCall(tokenAddr, SymbolSelector)];
      be := be + [EthCall(tokenAddr, DecimalsSelector)];
      be := be + [EthCall(tokenAddr, NameSelector)];
      be := be + [EthCall(tokenAddr, TotalSupplySelector)];
      assert be == TokenBatch(tokenAddr);
      var batchErr := node.batchError(be);
      if batchErr.Some? {
        return Err(batchErr.value);
      }
      for i := 0 to |be|
        invariant FirstCallError(node, be, i) == FirstCallError(node, be, 0)
      {
        var outcome := node.ethCall(be[i]);
        if outcome.CallError? {
          return Err(Wrapped("get token error " + be[i].Method, outcome.error));
        }
      }
      var symbol := ReturnData(node, be[0]);
      var name := ReturnData(node, be[2]);
      var decimals := BigEndian(ReturnData(node, be[1]));
      var totalSupply := BigEndian(ReturnData(node, be[3]));
      if decimals <= 0 || |symbol| == 0 {
        return Err(Failed("not found"));
      }
      var ti := TokenInfo(BytesToString(symbol), chainInfo.Name, tokenAddr, Int32Trunc(Low64(decimals)),
                          BytesToString(name), totalSupply, "", "");
      tokens := tokens[key := ti];
      return Ok(ti);
    }
  }

  // ---------------------------------------------------------------------------
  // Balance, allowance, receipt and block queries

  /** The balance query shared by `GetBalance` (`block == None`) and
      `GetBalanceAtBlockNumber`: both addresses trimmed, the native balance for
      the zero address, the contract's `balanceOf` otherwise. */
  function BalanceAt(node: EvmNode, ownerAddr: string, tokenAddr: string, block: Option<int64>): (r: Result<nat>)
    ensures var owner := node.hexToAddress(TrimSpace(ownerAddr));
            var token := TrimSpace(tokenAddr);
            var binding := node.newErc20(node.hexToAddress(token));
      && (node.isHexStringZero(token) ==> r == node.balanceAt(owner, block))
      && (!node.isHexStringZero(token) && binding.Err? ==> r == Err(binding.error))
      && (!node.isHexStringZero(token) && binding.Ok? ==> r == node.balanceOf(binding.value, owner, block))
  {
    var owner := node.hexToAddress(TrimSpace(ownerAddr));
    var token := TrimSpace(tokenAddr);
    if node.isHexStringZero(token) then node.balanceAt(owner, block)
    else
      match node.newErc20(node.hexToAddress(token))
      case Err(e) => Err(e)
      case Ok(c) => node.balanceOf(c, owner, block)
  }

  /** `GetBalance`: the balance at the latest block (a nil block number). */
  function GetBalance(node: EvmNode, ownerAddr: string, tokenAddr: string): (r: Result<nat>)
    ensures var owner := node.hexToAddress(TrimSpace(ownerAddr));
            var binding := node.newErc20(node.hexToAddress(TrimSpace(tokenAddr)));
      && (node.isHexStringZero(TrimSpace(tokenAddr)) ==> r == node.balanceAt(owner, None))
      && (!node.isHexStringZero(TrimSpace(tokenAddr)) && binding.Err? ==> r == Err(binding.error))
      && (!node.isHexStringZero(TrimSpace(tokenAddr)) && binding.Ok? ==> r == node.balanceOf(binding.value, owner, None))
  {
    BalanceAt(node, ownerAddr, tokenAddr, None)
  }

  /** `GetBalanceAtBlockNumber`: the balance at the given block. */
  function GetBalanceAtBlockNumber(node: EvmNode, ownerAddr: string, tokenAddr: string, blockNumber: int64): (r: Result<nat>)
    ensures var owner := node.hexToAddress(TrimSpace(ownerAddr));
            var binding := node.newErc20(node.hexToAddress(TrimSpace(tokenAddr)));
      && (node.isHexStringZero(TrimSpace(tokenAddr)) ==> r == node.balanceAt(owner, Some(blockNumber)))
      && (!node.isHexStringZero(TrimSpace(tokenAddr)) && binding.Err? ==> r == Err(binding.error))
      && (!node.isHexStringZero(TrimSpace(tokenAddr)) && binding.Ok? ==>
            r == node.balanceOf(binding.value, owner, Some(blockNumber)))
  {
    BalanceAt(node, ownerAddr, tokenAddr, Some(blockNumber))
  }

  /** White space around either address changes no balance. */
  lemma BalanceIgnoresPadding(node: EvmNode, owner: string, token: string, block: Option<int64>,
                              p1: string, q1: string, p2: string, q2: string)
    requires IsTrimmed(owner) && IsTrimmed(token)
    requires AllSpace(p1) && AllSpace(q1) && AllSpace(p2) && AllSpace(q2)
    ensures BalanceAt(node, p1 + owner + q1, p2 + token + q2, block) == BalanceAt(node, owner, token, block)
  {
    TrimSpacePadded(p1, owner, q1);
    TrimSpacePadded(p2, token, q2);
    TrimSpaceOfTrimmed(owner);
    TrimSpaceOfTrimmed(token);
  }

  /** Every balance error is a node or binding error passed on unchanged. */
  lemma BalanceErrorsPassThrough(node: EvmNode, ownerAddr: string, tokenAddr: string, block: Option<int64>)
    requires BalanceAt(node, ownerAddr, tokenAddr, block).Err?
    ensures var e := BalanceAt(node, ownerAddr, tokenAddr, block).error;
            var owner := node.hexToAddress(TrimSpace(ownerAddr));
            var binding := node.newErc20(node.hexToAddress(TrimSpace(tokenAddr)));
      node.balanceAt(owner, block) == Err(e) || binding == Err(e) ||
      (binding.Ok? && node.balanceOf(binding.value, owner, block) == Err(e))
  {
  }

  /** `GetAllowance`: the contract's allowance from owner to spender, at the
      latest block; the addresses are not trimmed. */
  function GetAllowance(node: EvmNode, ownerAddr: string, tokenAddr: string, spenderAddr: string): (r: Result<nat>)
    ensures node.newErc20(node.hexToAddress(tokenAddr)).Err? ==> r == Err(node.newErc20(node.hexToAddress(tokenAddr)).error)
    ensures node.newErc20(node.hexToAddress(tokenAddr)).Ok? ==>
      r == node.allowance(node.newErc20(node.hexToAddress(tokenAddr)).value,
                          node.hexToAddress(ownerAddr), node.hexToAddress(spenderAddr))
  {
    match node.newErc20(node.hexToAddress(tokenAddr))
    case Err(e) => Err(e)
    case Ok(c) => node.allowance(c, node.hexToAddress(ownerAddr), node.hexToAddress(spenderAddr))
  }

  /** `IsTxSuccess`: whether the receipt's status is successful, with its block
      number as an `int64`; an error when the query fails or finds no receipt. */
  function IsTxSuccess(node: EvmNode, hash: string): (r: TxOutcome)
    ensures r.err.Some? ==> !r.success && r.block == 0
    ensures node.transactionReceipt(node.hexToHash(hash)).Err? ==>
      r.err == Some(node.transactionReceipt(node.hexToHash(hash)).error)
    ensures r.err.None? <==> exists rc: Receipt :: node.transactionReceipt(node.hexToHash(hash)) == Ok(Some(rc))
    ensures node.transactionReceipt(node.hexToHash(hash)) == Ok(None) ==> r.err == Some(Failed("get receipt failed"))
    ensures forall rc: Receipt :: node.transactionReceipt(node.hexToHash(hash)) == Ok(Some(rc)) ==>
      (r.success <==> rc.Status == ReceiptStatusSuccessful)
  {
    match node.transactionReceipt(node.hexToHash(hash))
    case Err(e) => TxOutcome(false, 0, Some(e))
    case Ok(None) => TxOutcome(false, 0, Some(Failed("get receipt failed")))
    case Ok(Some(rc)) => TxOutcome(rc.Status == ReceiptStatusSuccessful, Int64Trunc(rc.BlockNumber), None)
  }

  /** A receipt's block number that fits in 64 signed bits is reported as is. */
  lemma ReceiptBlockReported(node: EvmNode, hash: string, rc: Receipt)
    requires node.transactionReceipt(node.hexToHash(hash)) == Ok(Some(rc))
    requires 0 <= rc.BlockNumber < 0x8000_0000_0000_0000
    ensures IsTxSuccess(node, hash).block == rc.BlockNumber
  {
  }

  /** `GetLatestBlockNumber`: the node's block number as an `int64`. */
  function GetLatestBlockNumber(node: EvmNode): (r: Result<int64>)
    ensures node.blockNumber.Ok? && node.blockNumber.value < 0x8000_0000_0000_0000 ==> r == Ok(node.blockNumber.value)
    ensures node.blockNumber.Err? ==> r == Err(node.blockNumber.error)
  {
    match node.blockNumber
    case Err(e) => Err(e)
    case Ok(n) => Ok(Int64Trunc(n))
  }

  /** `Backend`: the registry's Ethereum backend number. */
  function Backend(): (b: int32)
    ensures b == ChainRegistry.EthereumBackend
  {
    1
  }
}

=== FILE: indexing.dfy ===
/** Generic list-to-index machinery used by the registries: the map that
    inserting a list's elements one by one under a key builds, the reference
    "last element with this key" lookup it agrees with, and the concatenation
    of per-element contributions that a row-by-row load computes. */
module Indexing {
  import opened Errors

  /** The map that inserting every element of `xs`, in order, under `key` builds. */
  function Index<T, K(==)>(xs: seq<T>, key: T -> K): map<K, T> {
    if xs == [] then map[]
    else Index(xs[..|xs| - 1], key)[key(xs[|xs| - 1]) := xs[|xs| - 1]]
  }

  /** Inserting one more element updates the index at that element's key. */
  lemma IndexSnoc<T, K>(xs: seq<T>, x: T, key: T -> K)
    ensures Index(xs + [x], key) == Index(xs, key)[key(x) := x]
  {
    assert (xs + [x])[..|xs|] == xs;
  }

  /** Reference lookup: the last element of `xs` whose key is `k`. */
  function LastWithKey<T, K(==)>(xs: seq<T>, key: T -> K, k: K): (r: Option<T>)
    ensures r.Some? <==> exists i :: 0 <= i < |xs| && key(xs[i]) == k
    ensures r.Some? ==> key(r.value) == k
    ensures r.Some? ==> exists i :: 0 <= i < |xs| && xs[i] == r.value &&
                          forall j :: i < j < |xs| ==> key(xs[j]) != k
  {
    if xs == [] then None
    else if key(xs[|xs| - 1]) == k then Some(xs[|xs| - 1])
    else LastWithKey(xs[..|xs| - 1], key, k)
  }

  /** An index holds, for each key, the last element inserted under it. */
  lemma {:induction false} IndexIsLastWithKey<T, K>(xs: seq<T>, key: T -> K, k: K)
    ensures (k in Index(xs, key)) == LastWithKey(xs, key, k).Some?
    ensures k in Index(xs, key) ==> Index(xs, key)[k] == LastWithKey(xs, key, k).value
  {
    if xs != [] {
      IndexIsLastWithKey(xs[..|xs| - 1], key, k);
    }
  }

  /** The keys of an index are exactly the keys of the elements of the list. */
  lemma {:induction false} IndexKeys<T, K>(xs: seq<T>, key: T -> K)
    ensures Index(xs, key).Keys == set i | 0 <= i < |xs| :: key(xs[i])
  {
    if xs != [] {
      var init := xs[..|xs| - 1];
      IndexKeys(init, key);
      assert forall i :: 0 <= i < |init| ==> init[i] == xs[i];
      assert (set i | 0 <= i < |xs| :: key(xs[i])) ==
             (set i | 0 <= i < |init| :: key(init[i])) + {key(xs[|xs| - 1])};
    }
  }

  /** The list of everything `f` contributes for the elements of `xs`, in order. */
  function FlatMap<T, U>(xs: seq<T>, f: T -> seq<U>): seq<U> {
    if xs == [] then [] else FlatMap(xs[..|xs| - 1], f) + f(xs[|xs| - 1])
  }

  /** One more element extends the list by its contribution. */
  lemma FlatMapSnoc<T, U>(xs: seq<T>, i: nat, f: T -> seq<U>)
    requires i < |xs|
    ensures FlatMap(xs[..i + 1], f) == FlatMap(xs[..i], f) + f(xs[i])
  {
    assert xs[..i + 1][..i] == xs[..i];
  }

  /** Elements contribute independently of each other. */
  lemma {:induction false} FlatMapAppend<T, U>(a: seq<T>, b: seq<T>, f: T -> seq<U>)
    ensures FlatMap(a + b, f) == FlatMap(a, f) + FlatMap(b, f)
  {
    if b == [] {
      assert a + b == a;
    } else {
      assert (a + b)[..|a + b| - 1] == a + b[..|b| - 1];
      FlatMapAppend(a, b[..|b| - 1], f);
    }
  }

  /** An element contributing nothing can be dropped from the list. */
  lemma FlatMapSkip<T, U>(before: seq<T>, x: T, after: seq<T>, f: T -> seq<U>)
    requires f(x) == []
    ensures FlatMap(before + [x] + after, f) == FlatMap(before + after, f)
  {
    FlatMapAppend(before + [x], after, f);
    FlatMapAppend(before, [x], f);
    FlatMapAppend(before, after, f);
    assert FlatMap([x], f) == FlatMap([], f) + f(x);
  }

  /** Elements that contribute nothing contribute nothing together. */
  lemma {:induction false} FlatMapOfEmpty<T, U>(xs: seq<T>, f: T -> seq<U>)
    requires forall i :: 0 <= i < |xs| ==> f(xs[i]) == []
    ensures FlatMap(xs, f) == []
  {
    if xs != [] {
      FlatMapOfEmpty(xs[..|xs| - 1], f);
    }
  }
}

=== FILE: ints.dfy ===
/** Go's fixed-width integer types as subset types of `int`, and the
    conversions between them that the Go source performs (two's-complement
    truncation, as Go defines `int32(x)` and `int64(x)`). */
module Ints {

  type byte = x: int | 0 <= x < 0x100
  type uint16 = x: int | 0 <= x < 0x1_0000
  type uint64 = x: int | 0 <= x < 0x1_0000_0000_0000_0000
  type int8 = x: int | -0x80 <= x < 0x80
  type int32 = x: int | -0x8000_0000 <= x < 0x8000_0000
  type int64 = x: int | -0x8000_0000_0000_0000 <= x < 0x8000_0000_0000_0000

  const TWO_32: int := 0x1_0000_0000
  const TWO_64: int := 0x1_0000_0000_0000_0000

  /** `int32(x)`: the low 32 bits of `x` read as a signed number. */
  function Int32Trunc(x: int): (r: int32)
    ensures (r - x) % TWO_32 == 0
    ensures -0x8000_0000 <= x < 0x8000_0000 ==> r == x
  {
    var low := x % TWO_32;
    if low < 0x8000_0000 then low else low - TWO_32
  }

  /** `int64(x)`: the low 64 bits of `x` read as a signed number. */
  function Int64Trunc(x: int): (r: int64)
    ensures (r - x) % TWO_64 == 0
    ensures -0x8000_0000_0000_0000 <= x < 0x8000_0000_0000_0000 ==> r == x
  {
    var low := x % TWO_64;
    if low < 0x8000_0000_0000_0000 then low else low - TWO_64
  }

  /** `x.Uint64()` of a non-negative `*big.Int`: its low 64 bits. */
  function Low64(x: nat): (r: uint64)
    ensures (r - x) % TWO_64 == 0
    ensures x < TWO_64 ==> r == x
  {
    x % TWO_64
  }
}

=== FILE: solana.dfy ===
/** The Solana backend of rpc/solana.go: the scan of a Token-2022 mint's
    type-length-value extension area, token resolution with its cache, and the
    balance, allowance and transaction queries. The node and the decoders are
    the collaborators of `SolanaNode`. */
module Solana {
  import opened Ints
  import opened Errors
  import opened Text
  import opened Tokens
  import ChainRegistry

  datatype PublicKey = PublicKey(key: seq<byte>)
  datatype Signature = Signature(sig: seq<byte>)

  /** The account part of `rpc.GetAccountInfoResult` the code reads. */
  datatype Account = Account(Lamports: uint64, Data: seq<byte>)

  /** The name, symbol and URI of a Metaplex metadata account or of a token
      metadata extension. */
  datatype TokenMetadata = TokenMetadata(Name: string, Symbol: string, Uri: string)

  /** The fields of `token.Mint` and `token.Account` the code reads. */
  datatype Mint = Mint(Supply: uint64, Decimals: byte)
  datatype TokenAccount = TokenAccount(Amount: uint64, DelegatedAmount: uint64)

  /** A fetched transaction: its slot and whether its meta records an error. */
  datatype Transaction = Transaction(Slot: uint64, Failed: bool)

  /** What the node and the libraries answer, as functions of their inputs:
      address parsing and derivation, account fetches, the Borsh and Metaplex
      decoders, and the transaction and slot queries. */
  datatype SolanaNode = SolanaNode(
    isHexStringZero: string -> bool,
    publicKeyFromBase58: string -> Result<PublicKey>,
    signatureFromBase58: string -> Result<Signature>,
    findTokenMetadataAddress: PublicKey -> Result<PublicKey>,
    getAtaFromPk: (PublicKey, PublicKey) -> Result<PublicKey>,
    getAccountInfo: PublicKey -> Result<Account>,
    metadataDeserialize: seq<byte> -> Result<TokenMetadata>,
    unmarshalMint: seq<byte> -> Result<Mint>,
    unmarshalTokenAccount: seq<byte> -> Result<TokenAccount>,
    borshMetadata: seq<byte> -> Option<TokenMetadata>,
    getTransaction: Signature -> Result<Option<Transaction>>,
    getSlot: Result<uint64>)

  /** The system program address, the second spelling of the native token. */
  const SystemProgramAddress: string := "11111111111111111111111111111111"

  /** Where a Token-2022 mint's extension area begins: the 165-byte base account
      layout followed by the one-byte account type. */
  const MintSize: nat := 166

  /** Extension type of the token metadata extension. */
  const TokenMetadataExtension: uint16 := 19

  // ---------------------------------------------------------------------------
  // The extension scan

  /** `binary.LittleEndian.Uint16(b[i:i+2])`. */
  function LE16(b: seq<byte>, i: nat): uint16
    requires i + 2 <= |b|
  {
    b[i] as int + 0x100 * b[i + 1] as int
  }

  /** The type and the length of the entry whose header starts at `i`. */
  function EntryType(tlv: seq<byte>, i: nat): uint16
    requires i + 4 <= |tlv|
  {
    LE16(tlv, i)
  }

  function EntryLength(tlv: seq<byte>, i: nat): uint16
    requires i + 4 <= |tlv|
  {
    LE16(tlv, i + 2)
  }

  /** Where the scan looks after the entry at `i`: at least four bytes further on. */
  function NextEntry(tlv: seq<byte>, i: nat): (j: nat)
    requires i + 4 <= |tlv|
    ensures j >= i + 4
  {
    i + 4 + EntryLength(tlv, i)
  }

  /** The entry's payload lies within the buffer. */
  predicate Fits(tlv: seq<byte>, i: nat)
    requires i + 4 <= |tlv|
  {
    NextEntry(tlv, i) <= |tlv|
  }

  function Payload(tlv: seq<byte>, i: nat): seq<byte>
    requires i + 4 <= |tlv| && Fits(tlv, i)
  {
    tlv[i + 4..NextEntry(tlv, i)]
  }

  /** The scan of `getExtensionData` from offset `i`: the payload of the first
      entry of type `ext` that fits, stopping with nothing once fewer than four
      bytes remain. */
  function FindExtension(ext: uint16, tlv: seq<byte>, i: nat): (r: Option<seq<byte>>)
    ensures i + 4 > |tlv| ==> r == None
    ensures r.Some? ==> i + 4 + |r.value| <= |tlv|
    decreases |tlv| - i
  {
    if i + 4 > |tlv| then None
    else if EntryType(tlv, i) == ext && Fits(tlv, i) then Some(Payload(tlv, i))
    else FindExtension(ext, tlv, NextEntry(tlv, i))
  }

  /** The offsets of the entry headers the scan visits from `i`, in order: each
      has a whole header in the buffer, each after the first is where the one
      before it ends, so only the last entry can overrun the buffer. */
  function ScanPositions(tlv: seq<byte>, i: nat): (ps: seq<nat>)
    ensures ps == [] <==> i + 4 > |tlv|
    ensures ps != [] ==> ps[0] == i
    ensures forall k :: 0 <= k < |ps| ==> ps[k] + 4 <= |tlv|
    ensures forall k :: 0 <= k < |ps| - 1 ==> ps[k + 1] == NextEntry(tlv, ps[k])
    ensures forall k :: 0 <= k < |ps| - 1 ==> Fits(tlv, ps[k])
    ensures ps != [] ==> NextEntry(tlv, ps[|ps| - 1]) + 4 > |tlv|
    decreases |tlv| - i
  {
    if i + 4 > |tlv| then []
    else [i] + ScanPositions(tlv, NextEntry(tlv, i))
  }

  /** With no entry of the wanted type on the scan path the result is nil. */
  lemma {:induction false} NoEntryOfTypeFindsNothing(ext: uint16, tlv: seq<byte>, i: nat)
    requires forall k :: 0 <= k < |ScanPositions(tlv, i)| ==> EntryType(tlv, ScanPositions(tlv, i)[k]) != ext
    ensures FindExtension(ext, tlv, i) == None
    decreases |tlv| - i
  {
    if i + 4 <= |tlv| {
      var ps := ScanPositions(tlv, i);
      assert EntryType(tlv, ps[0]) != ext;
      var rest := ScanPositions(tlv, NextEntry(tlv, i));
      assert forall k :: 0 <= k < |rest| ==> rest[k] == ps[k + 1];
      NoEntryOfTypeFindsNothing(ext, tlv, NextEntry(tlv, i));
    }
  }

  /** The first entry of the wanted type on the scan path decides the result: its
      payload when it fits, and nil when it overruns the buffer. */
  lemma {:induction false} FirstEntryOfTypeDecides(ext: uint16, tlv: seq<byte>, i: nat, k: nat)
    requires k < |ScanPositions(tlv, i)|
    requires EntryType(tlv, ScanPositions(tlv, i)[k]) == ext
    requires forall j :: 0 <= j < k ==> EntryType(tlv, ScanPositions(tlv, i)[j]) != ext
    ensures var p := ScanPositions(tlv, i)[k];
      FindExtension(ext, tlv, i) == if Fits(tlv, p) then Some(Payload(tlv, p)) else None
    decreases |tlv| - i
  {
    var ps := ScanPositions(tlv, i);
    if k > 0 {
      assert EntryType(tlv, ps[0]) != ext;
      var rest := ScanPositions(tlv, NextEntry(tlv, i));
      assert forall j :: 0 <= j < |rest| ==> rest[j] == ps[j + 1];
      FirstEntryOfTypeDecides(ext, tlv, NextEntry(tlv, i), k - 1);
    } else if !Fits(tlv, i) {
      assert FindExtension(ext, tlv, NextEntry(tlv, i)) == None;
    }
  }

  /** The `k`-th entry on the scan path from `i` is of type `ext`, fits in the
      buffer, and is the first entry of that type on the path. */
  predicate FirstOfType(ext: uint16, tlv: seq<byte>, i: nat, k: nat)
    requires k < |ScanPositions(tlv, i)|
  {
    var ps := ScanPositions(tlv, i);
    EntryType(tlv, ps[k]) == ext && Fits(tlv, ps[k]) &&
    forall j :: 0 <= j < k ==> EntryType(tlv, ps[j]) != ext
  }

  /** A result is the in-bounds payload of an entry of the wanted type on the
      scan path, with no entry of that type before it. */
  lemma {:induction false} FoundIsFirstPayload(ext: uint16, tlv: seq<byte>, i: nat)
    requires FindExtension(ext, tlv, i).Some?
    ensures exists k: nat :: k < |ScanPositions(tlv, i)| && FirstOfType(ext, tlv, i, k) &&
                             FindExtension(ext, tlv, i).value == Payload(tlv, ScanPositions(tlv, i)[k])
    decreases |tlv| - i
  {
    var ps := ScanPositions(tlv, i);
    if EntryType(tlv, i) == ext && Fits(tlv, i) {
      assert FirstOfType(ext, tlv, i, 0);
    } else {
      var next := NextEntry(tlv, i);
      var rest := ScanPositions(tlv, next);
      assert ps == [i] + rest;
      assert EntryType(tlv, ps[0]) != ext;
      FoundIsFirstPayload(ext, tlv, next);
      var k: nat :| k < |rest| && FirstOfType(ext, tlv, next, k) &&
                    FindExtension(ext, tlv, next).value == Payload(tlv, rest[k]);
      assert ps[k + 1] == rest[k];
      assert FirstOfType(ext, tlv, i, k + 1);
    }
  }

  /** `getExtensionData`: walks the entries from offset 0, returning the payload
      of the first entry of type `ext` that fits in the buffer, and nil when the
      scan runs out of headers. */
  method ExtensionData(ext: uint16, tlv: seq<byte>) returns (r: Option<seq<byte>>)
    ensures r == FindExtension(ext, tlv, 0)
    ensures |tlv| < 4 ==> r == None
    ensures r.Some? ==> |r.value| <= |tlv| - 4
  {
    var i: nat := 0;
    while i + 4 <= |tlv|
      invariant FindExtension(ext, tlv, i) == FindExtension(ext, tlv, 0)
      decreases |tlv| - i
    {
      var entryType := LE16(tlv, i);
      var entryLength := LE16(tlv, i + 2);
      var typeIndex := i + 4;
      if entryType == ext && typeIndex + entryLength <= |tlv| {
        return Some(tlv[typeIndex..typeIndex + entryLength]);
      }
      i := typeIndex + entryLength;
    }
    return None;
  }

  // ---------------------------------------------------------------------------
  // Token resolution

  /** The native token: SOL, either spelled as a zero hex string or as the
      system program address. */
  predicate IsNative(node: SolanaNode, tokenAddr: string) {
    node.isHexStringZero(tokenAddr) || tokenAddr == SystemProgramAddress
  }

  function NativeToken(chainName: string, tokenAddr: string): TokenInfo {
    TokenInfo("SOL", chainName, tokenAddr, 9, "Solana", 0, "https://solana.com", "")
  }

  /** Name, symbol and URI from the Metaplex metadata account: placeholders when
      the account does not exist, an error for any other failure. */
  function MetadataFields(node: SolanaNode, metapk: PublicKey): Result<TokenMetadata> {
    match node.getAccountInfo(metapk)
    case Ok(account) => node.metadataDeserialize(account.Data)
    case Err(e) => if e == ErrNotFound then Ok(TokenMetadata("UNKNOWN", "UNKNOWN", "")) else Err(e)
  }

  /** The payload handed to the Borsh decoder: the metadata extension found past
      the base mint record, or no bytes (a nil slice) when there is none. */
  function ExtensionPayload(data: seq<byte>): seq<byte>
    requires |data| > MintSize
  {
    match FindExtension(TokenMetadataExtension, data[MintSize..], 0)
    case Some(payload) => payload
    case None => []
  }

  /** The fields the mint's own metadata extension overrides, when the mint data
      extends past the base record and the extension decodes. */
  function WithExtension(node: SolanaNode, data: seq<byte>, fields: TokenMetadata): TokenMetadata {
    if |data| > MintSize then
      match node.borshMetadata(ExtensionPayload(data))
      case Some(m) => m
      case None => fields
    else fields
  }

  /** The token a mint address resolves to when it is neither native nor cached. */
  function ResolveMint(node: SolanaNode, chainName: string, tokenAddr: string): (r: Result<TokenInfo>)
    ensures node.publicKeyFromBase58(tokenAddr).Err? ==> r == Err(node.publicKeyFromBase58(tokenAddr).error)
    ensures r.Ok? ==> CacheKey(r.value) == (chainName, tokenAddr) && r.value.Icon == ""
  {
    match node.publicKeyFromBase58(tokenAddr)
    case Err(e) => Err(e)
    case Ok(mintpk) =>
      match node.findTokenMetadataAddress(mintpk)
      case Err(e) => Err(e)
      case Ok(metapk) =>
        match MetadataFields(node, metapk)
        case Err(e) => Err(e)
        case Ok(fields) =>
          match node.getAccountInfo(mintpk)
          case Err(e) => Err(e)
          case Ok(account) =>
            match node.unmarshalMint(account.Data)
            case Err(e) => Err(e)
            case Ok(mint) =>
              var m := WithExtension(node, account.Data, fields);
              Ok(TokenInfo(m.Symbol, chainName, tokenAddr, mint.Decimals, m.Name, mint.Supply, m.Uri, ""))
  }

  /** A resolved token carries the chain's name, the address asked for, and the
      mint's decimals and supply. */
  lemma ResolvedTokenIsTheMint(node: SolanaNode, chainName: string, tokenAddr: string,
                               mintpk: PublicKey, account: Account, mint: Mint)
    requires node.publicKeyFromBase58(tokenAddr) == Ok(mintpk)
    requires node.getAccountInfo(mintpk) == Ok(account)
    requires node.unmarshalMint(account.Data) == Ok(mint)
    ensures var r := ResolveMint(node, chainName, tokenAddr);
      r.Ok? ==> CacheKey(r.value) == (chainName, tokenAddr) &&
                r.value.Decimals == mint.Decimals && r.value.TotalSupply == mint.Supply
  {
  }

  /** Without a metadata account and without a decodable extension, the token is
      named with placeholders. */
  lemma MissingMetadataGivesPlaceholders(node: SolanaNode, chainName: string, tokenAddr: string,
                                         mintpk: PublicKey, metapk: PublicKey, account: Account, mint: Mint)
    requires node.publicKeyFromBase58(tokenAddr) == Ok(mintpk)
    requires node.findTokenMetadataAddress(mintpk) == Ok(metapk)
    requires node.getAccountInfo(metapk) == Err(ErrNotFound)
    requires node.getAccountInfo(mintpk) == Ok(account)
    requires node.unmarshalMint(account.Data) == Ok(mint)
    requires |account.Data| <= MintSize || node.borshMetadata(ExtensionPayload(account.Data)).None?
    ensures ResolveMint(node, chainName, tokenAddr) ==
      Ok(TokenInfo("UNKNOWN", chainName, tokenAddr, mint.Decimals, "UNKNOWN", mint.Supply, "", ""))
  {
  }

  /** With a decodable metadata account and no decodable extension, the token is
      named by the metadata account. */
  lemma MetadataAccountNamesToken(node: SolanaNode, chainName: string, tokenAddr: string,
                                  mintpk: PublicKey, metapk: PublicKey, metaAccount: Account, md: TokenMetadata,
                                  account: Account, mint: Mint)
    requires node.publicKeyFromBase58(tokenAddr) == Ok(mintpk)
    requires node.findTokenMetadataAddress(mintpk) == Ok(metapk)
    requires node.getAccountInfo(metapk) == Ok(metaAccount)
    requires node.metadataDeserialize(metaAccount.Data) == Ok(md)
    requires node.getAccountInfo(mintpk) == Ok(account)
    requires node.unmarshalMint(account.Data) == Ok(mint)
    requires |account.Data| <= MintSize || node.borshMetadata(ExtensionPayload(account.Data)).None?
    ensures ResolveMint(node, chainName, tokenAddr) ==
      Ok(TokenInfo(md.Symbol, chainName, tokenAddr, mint.Decimals, md.Name, mint.Supply, md.Uri, ""))
  {
  }

  /** Every failing step after the mint address parses ends resolution with that
      step's error: deriving the metadata address, decoding an existing metadata
      account, fetching the mint account, and decoding the mint. */
  lemma ResolutionFailuresAreFatal(node: SolanaNode, chainName: string, tokenAddr: string,
                                   mintpk: PublicKey, metapk: PublicKey)
    requires node.publicKeyFromBase58(tokenAddr) == Ok(mintpk)
    ensures node.findTokenMetadataAddress(mintpk).Err? ==>
      ResolveMint(node, chainName, tokenAddr) == Err(node.findTokenMetadataAddress(mintpk).error)
    ensures node.findTokenMetadataAddress(mintpk) == Ok(metapk) && node.getAccountInfo(metapk).Ok? &&
            node.metadataDeserialize(node.getAccountInfo(metapk).value.Data).Err? ==>
      ResolveMint(node, chainName, tokenAddr) ==
        Err(node.metadataDeserialize(node.getAccountInfo(metapk).value.Data).error)
    ensures node.findTokenMetadataAddress(mintpk) == Ok(metapk) && MetadataFields(node, metapk).Ok? &&
            node.getAccountInfo(mintpk).Err? ==>
      ResolveMint(node, chainName, tokenAddr) == Err(node.getAccountInfo(mintpk).error)
    ensures node.findTokenMetadataAddress(mintpk) == Ok(metapk) && MetadataFields(node, metapk).Ok? &&
            node.getAccountInfo(mintpk).Ok? && node.unmarshalMint(node.getAccountInfo(mintpk).value.Data).Err? ==>
      ResolveMint(node, chainName, tokenAddr) == Err(node.unmarshalMint(node.getAccountInfo(mintpk).value.Data).error)
  {
  }

  /** A metadata-account failure other than "not found" is the result. */
  lemma MetadataErrorPropagates(node: SolanaNode, chainName: string, tokenAddr: string,
                                mintpk: PublicKey, metapk: PublicKey, e: Error)
    requires node.publicKeyFromBase58(tokenAddr) == Ok(mintpk)
    requires node.findTokenMetadataAddress(mintpk) == Ok(metapk)
    requires node.getAccountInfo(metapk) == Err(e) && e != ErrNotFound
    ensures ResolveMint(node, chainName, tokenAddr) == Err(e)
  {
  }

  /** A decodable metadata extension names the token, whatever the metadata
      account says, provided that account does not fail. */
  lemma ExtensionOverridesMetadata(node: SolanaNode, chainName: string, tokenAddr: string,
                                   mintpk: PublicKey, metapk: PublicKey, account: Account, mint: Mint,
                                   m: TokenMetadata)
    requires node.publicKeyFromBase58(tokenAddr) == Ok(mintpk)
    requires node.findTokenMetadataAddress(mintpk) == Ok(metapk)
    requires MetadataFields(node, metapk).Ok?
    requires node.getAccountInfo(mintpk) == Ok(account)
    requires node.unmarshalMint(account.Data) == Ok(mint)
    requires |account.Data| > MintSize && node.borshMetadata(ExtensionPayload(account.Data)) == Some(m)
    ensures ResolveMint(node, chainName, tokenAddr) ==
      Ok(TokenInfo(m.Symbol, chainName, tokenAddr, mint.Decimals, m.Name, mint.Supply, m.Uri, ""))
  {
  }

  class SolanaRpc {
    const chainInfo: ChainRegistry.ChainInfo
    var tokens: TokenCache

    ghost predicate Valid()
      reads this
    {
      CacheCoherent(tokens)
    }

    /** `NewSolanaRpc`: a backend for the chain with an empty token cache. */
    constructor (chain: ChainRegistry.ChainInfo)
      ensures chainInfo == chain && tokens == map[] && Valid()
    {
      chainInfo := chain;
      tokens := map[];
    }

    /** `GetTokenInfo`: the native token without consulting anything, a cached
        token as cached, and otherwise the resolved mint, which is cached when,
        and only when, resolution succeeds. */
    method GetTokenInfo(node: SolanaNode, tokenAddr: string) returns (r: Result<TokenInfo>)
      requires Valid()
      modifies this
      ensures Valid()
      ensures IsNative(node, tokenAddr) ==>
        r == Ok(NativeToken(chainInfo.Name, tokenAddr)) && tokens == old(tokens)
      ensures !IsNative(node, tokenAddr) && (chainInfo.Name, tokenAddr) in old(tokens) ==>
        r == Ok(old(tokens)[(chainInfo.Name, tokenAddr)]) && tokens == old(tokens)
      ensures !IsNative(node, tokenAddr) && (chainInfo.Name, tokenAddr) !in old(tokens) ==>
        && r == ResolveMint(node, chainInfo.Name, tokenAddr)
        && tokens == if r.Ok? then old(tokens)[(chainInfo.Name, tokenAddr) := r.value] else old(tokens)
    {
      if node.isHexStringZero(tokenAddr) || tokenAddr == SystemProgramAddress {
        return Ok(NativeToken(chainInfo.Name, tokenAddr));
      }
      var key := (chainInfo.Name, tokenAddr);
      if key in tokens {
        return Ok(tokens[key]);
      }
      var mintpk := node.publicKeyFromBase58(tokenAddr);
      if mintpk.Err? {
        return Err(mintpk.error);
      }
      var metapk := node.findTokenMetadataAddress(mintpk.value);
      if metapk.Err? {
        return Err(metapk.error);
      }
      var symbol, fullName, uri := "UNKNOWN", "UNKNOWN", "";
      var rsp := node.getAccountInfo(metapk.value);
      if rsp.Ok? {
        var meta := node.metadataDeserialize(rsp.value.Data);
        if meta.Err? {
          return Err(meta.error);
        }
        symbol, fullName, uri := meta.value.Symbol, meta.value.Name, meta.value.Uri;
      } else if rsp.error != ErrNotFound {
        return Err(rsp.error);
      }
      rsp := node.getAccountInfo(mintpk.value);
      if rsp.Err? {
        return Err(rsp.error);
      }
      var data := rsp.value.Data;
      var mint := node.unmarshalMint(data);
      if mint.Err? {
        return Err(mint.error);
      }
      if |data| > MintSize {
        var ext := ExtensionData(TokenMetadataExtension, data[MintSize..]);
        var metadata := node.borshMetadata(if ext.Some? then ext.value else []);
        if metadata.Some? {
          symbol, fullName, uri := metadata.value.Symbol, metadata.value.Name, metadata.value.Uri;
        }
      }
      var token := TokenInfo(symbol, chainInfo.Name, tokenAddr, mint.value.Decimals, fullName,
                             mint.value.Supply, uri, "");
      tokens := tokens[key := token];
      return Ok(token);
    }
  }

  // ---------------------------------------------------------------------------
  // Account, balance and transaction queries

  /** `GetStrAccountInfo`: the account at a trimmed base58 address. */
  function GetStrAccountInfo(node: SolanaNode, ownerAddr: string): (r: Result<Account>)
    ensures var pk := node.publicKeyFromBase58(TrimSpace(ownerAddr));
      && (pk.Err? ==> r == Err(pk.error))
      && (pk.Ok? ==> r == node.getAccountInfo(pk.value))
  {
    match node.publicKeyFromBase58(TrimSpace(ownerAddr))
    case Err(e) => Err(e)
    case Ok(ownerpk) => node.getAccountInfo(ownerpk)
  }

  /** `GetSplAccount`: the owner's associated token account for a mint, decoded. */
  function GetSplAccount(node: SolanaNode, ownerAddr: string, tokenAddr: string): (r: Result<TokenAccount>)
    ensures var owner := node.publicKeyFromBase58(TrimSpace(ownerAddr));
            var mint := node.publicKeyFromBase58(TrimSpace(tokenAddr));
      && (owner.Err? ==> r == Err(owner.error))
      && (owner.Ok? && mint.Err? ==> r == Err(mint.error))
      && (owner.Ok? && mint.Ok? && node.getAtaFromPk(owner.value, mint.value).Err? ==>
            r == Err(node.getAtaFromPk(owner.value, mint.value).error))
      && (owner.Ok? && mint.Ok? && node.getAtaFromPk(owner.value, mint.value).Ok? ==>
            var account := node.getAccountInfo(node.getAtaFromPk(owner.value, mint.value).value);
            r == if account.Ok? then node.unmarshalTokenAccount(account.value.Data) else Err(account.error))
  {
    match node.publicKeyFromBase58(TrimSpace(ownerAddr))
    case Err(e) => Err(e)
    case Ok(ownerpk) =>
      match node.publicKeyFromBase58(TrimSpace(tokenAddr))
      case Err(e) => Err(e)
      case Ok(mintpk) =>
        match node.getAtaFromPk(ownerpk, mintpk)
        case Err(e) => Err(e)
        case Ok(ata) =>
          match node.getAccountInfo(ata)
          case Err(e) => Err(e)
          case Ok(account) => node.unmarshalTokenAccount(account.Data)
  }

  /** A missing account reads as a zero balance; other errors pass through. */
  function ZeroIfNotFound<T>(r: Result<T>, amount: T -> int): (b: Result<int>)
    ensures r.Ok? ==> b == Ok(amount(r.value))
    ensures r.Err? && r.error == ErrNotFound ==> b == Ok(0)
    ensures r.Err? && r.error != ErrNotFound ==> b == Err(r.error)
  {
    match r
    case Ok(v) => Ok(amount(v))
    case Err(e) => if e == ErrNotFound then Ok(0) else Err(e)
  }

  /** `GetBalance`: lamports for the native token, the token account's amount
      otherwise, each converted to `int64` as the source does. */
  function GetBalance(node: SolanaNode, ownerAddr: string, tokenAddr: string): (r: Result<int>)
    ensures r != Err(ErrNotFound)
    ensures var spl := GetSplAccount(node, TrimSpace(ownerAddr), TrimSpace(tokenAddr));
      !IsNative(node, TrimSpace(tokenAddr)) ==>
        && (spl.Ok? ==> r == Ok(Int64Trunc(spl.value.Amount)))
        && (spl == Err(ErrNotFound) ==> r == Ok(0))
        && (spl.Err? && spl.error != ErrNotFound ==> r == Err(spl.error))
  {
    var owner := TrimSpace(ownerAddr);
    var token := TrimSpace(tokenAddr);
    if IsNative(node, token) then
      ZeroIfNotFound(GetStrAccountInfo(node, owner), (a: Account) => Int64Trunc(a.Lamports))
    else
      ZeroIfNotFound(GetSplAccount(node, owner, token), (t: TokenAccount) => Int64Trunc(t.Amount))
  }

  /** `GetAllowance`: the delegated amount of the owner's token account; the
      spender is not consulted. */
  function GetAllowance(node: SolanaNode, ownerAddr: string, tokenAddr: string, spenderAddr: string): (r: Result<int>)
    ensures r != Err(ErrNotFound)
    ensures var spl := GetSplAccount(node, ownerAddr, tokenAddr);
      && (spl.Ok? ==> r == Ok(Int64Trunc(spl.value.DelegatedAmount)))
      && (spl == Err(ErrNotFound) ==> r == Ok(0))
      && (spl.Err? && spl.error != ErrNotFound ==> r == Err(spl.error))
  {
    ZeroIfNotFound(GetSplAccount(node, ownerAddr, tokenAddr), (t: TokenAccount) => Int64Trunc(t.DelegatedAmount))
  }

  /** A token account's amounts below 2^63 are reported exactly: the balance is
      the account's amount and the allowance its delegated amount. */
  lemma InRangeAmountsReadBack(node: SolanaNode, ownerAddr: string, tokenAddr: string, spenderAddr: string,
                               t: TokenAccount)
    requires GetSplAccount(node, TrimSpace(ownerAddr), TrimSpace(tokenAddr)) == Ok(t)
    requires t.Amount < 0x8000_0000_0000_0000 && t.DelegatedAmount < 0x8000_0000_0000_0000
    ensures !IsNative(node, TrimSpace(tokenAddr)) ==> GetBalance(node, ownerAddr, tokenAddr) == Ok(t.Amount as int)
    ensures GetAllowance(node, ownerAddr, tokenAddr, spenderAddr) == Ok(t.DelegatedAmount as int)
  {
    TrimSpaceOfTrimmed(TrimSpace(ownerAddr));
    TrimSpaceOfTrimmed(TrimSpace(tokenAddr));
  }

  /** The native balance is the lamport count, zero for a missing account, and
      otherwise the account query's error. */
  lemma NativeBalanceIsLamports(node: SolanaNode, ownerAddr: string, tokenAddr: string)
    requires IsNative(node, TrimSpace(tokenAddr))
    ensures var a := GetStrAccountInfo(node, TrimSpace(ownerAddr));
      GetBalance(node, ownerAddr, tokenAddr) ==
        if a.Ok? then Ok(Int64Trunc(a.value.Lamports))
        else if a.error == ErrNotFound then Ok(0) else Err(a.error)
  {
  }

  /** White space around either address changes nothing. */
  lemma BalanceIgnoresPadding(node: SolanaNode, owner: string, token: string,
                              p1: string, q1: string, p2: string, q2: string)
    requires IsTrimmed(owner) && IsTrimmed(token)
    requires AllSpace(p1) && AllSpace(q1) && AllSpace(p2) && AllSpace(q2)
    ensures GetBalance(node, p1 + owner + q1, p2 + token + q2) == GetBalance(node, owner, token)
  {
    TrimSpacePadded(p1, owner, q1);
    TrimSpacePadded(p2, token, q2);
    TrimSpaceOfTrimmed(owner);
    TrimSpaceOfTrimmed(token);
  }

  /** White space around the owner or token address does not change the token
      account found. */
  lemma SplAccountIgnoresPadding(node: SolanaNode, owner: string, token: string,
                                 p1: string, q1: string, p2: string, q2: string)
    requires IsTrimmed(owner) && IsTrimmed(token)
    requires AllSpace(p1) && AllSpace(q1) && AllSpace(p2) && AllSpace(q2)
    ensures GetSplAccount(node, p1 + owner + q1, p2 + token + q2) == GetSplAccount(node, owner, token)
  {
    TrimSpacePadded(p1, owner, q1);
    TrimSpacePadded(p2, token, q2);
    TrimSpaceOfTrimmed(owner);
    TrimSpaceOfTrimmed(token);
  }

  /** The spender plays no part in an allowance, and white space around the
      owner or token address changes nothing. */
  lemma AllowanceIgnoresSpenderAndPadding(node: SolanaNode, owner: string, token: string, s1: string, s2: string,
                                          p1: string, q1: string, p2: string, q2: string)
    requires IsTrimmed(owner) && IsTrimmed(token)
    requires AllSpace(p1) && AllSpace(q1) && AllSpace(p2) && AllSpace(q2)
    ensures GetAllowance(node, p1 + owner + q1, p2 + token + q2, s1) == GetAllowance(node, owner, token, s2)
  {
    SplAccountIgnoresPadding(node, owner, token, p1, q1, p2, q2);
  }

  /** An amount of 2^63 or more reads back negative: the `int64` conversion wraps. */
  lemma LargeAmountReadsNegative(node: SolanaNode, ownerAddr: string, tokenAddr: string, t: TokenAccount)
    requires !IsNative(node, TrimSpace(tokenAddr))
    requires GetSplAccount(node, TrimSpace(ownerAddr), TrimSpace(tokenAddr)) == Ok(t)
    requires t.Amount >= 0x8000_0000_0000_0000
    ensures GetBalance(node, ownerAddr, tokenAddr) == Ok(t.Amount - TWO_64)
    ensures GetBalance(node, ownerAddr, tokenAddr).value < 0
  {
  }

  /** `IsTxSuccess`: whether the transaction's meta records no error, with its
      slot; an error when the signature does not parse, the query fails, or the
      node has no such transaction. */
  function IsTxSuccess(node: SolanaNode, hash: string): (r: TxOutcome)
    ensures r.err.Some? ==> !r.success && r.block == 0
    ensures r.err.None? <==> exists sig, tx :: node.signatureFromBase58(hash) == Ok(sig) &&
                                               node.getTransaction(sig) == Ok(Some(tx))
    ensures node.signatureFromBase58(hash).Err? ==> r.err == Some(node.signatureFromBase58(hash).error)
    ensures forall sig: Signature :: node.signatureFromBase58(hash) == Ok(sig) && node.getTransaction(sig).Err? ==>
      r.err == Some(node.getTransaction(sig).error)
    ensures forall sig: Signature :: node.signatureFromBase58(hash) == Ok(sig) && node.getTransaction(sig) == Ok(None) ==>
      r.err == Some(Failed("get receipt failed"))
    ensures forall sig: Signature, tx: Transaction ::
      node.signatureFromBase58(hash) == Ok(sig) && node.getTransaction(sig) == Ok(Some(tx)) ==>
        r.success == !tx.Failed && r.block == Int64Trunc(tx.Slot)
  {
    match node.signatureFromBase58(hash)
    case Err(e) => TxOutcome(false, 0, Some(e))
    case Ok(sig) =>
      match node.getTransaction(sig)
      case Err(e) => TxOutcome(false, 0, Some(e))
      case Ok(None) => TxOutcome(false, 0, Some(Failed("get receipt failed")))
      case Ok(Some(tx)) => TxOutcome(!tx.Failed, Int64Trunc(tx.Slot), None)
  }

  /** `GetLatestBlockNumber`: the finalized slot as an `int64`. */
  function GetLatestBlockNumber(node: SolanaNode): (r: Result<int64>)
    ensures node.getSlot.Ok? && node.getSlot.value < 0x8000_0000_0000_0000 ==> r == Ok(node.getSlot.value)
    ensures node.getSlot.Err? ==> r == Err(node.getSlot.error)
  {
    match node.getSlot
    case Err(e) => Err(e)
    case Ok(slot) => Ok(Int64Trunc(slot))
  }

  /** `Backend`: the registry's Solana backend number. */
  function Backend(): (b: int32)
    ensures b == ChainRegistry.SolanaBackend
  {
    3
  }
}

=== FILE: strconv.dfy ===
/** The parts of Go's `strconv` package the chain registry relies on:
    `FormatInt(n, 10)` and `ParseInt(s, 10, bitSize)` for bit sizes 32 and 64,
    including `ParseInt`'s clamping of out-of-range input and its 0 on a
    syntax error. */
module Strconv {

  predicate IsDigit(c: char) {
    '0' <= c <= '9'
  }

  function DigitChar(d: nat): (c: char)
    requires d < 10
    ensures IsDigit(c) && c as int - '0' as int == d
  {
    ('0' as int + d) as char
  }

  function DigitValue(c: char): (d: nat)
    requires IsDigit(c)
    ensures d < 10
  {
    c as int - '0' as int
  }

  /** The decimal digits of `m`, most significant first, without leading zeros. */
  function Digits(m: nat): (s: string)
    ensures |s| >= 1
    ensures forall i :: 0 <= i < |s| ==> IsDigit(s[i])
  {
    if m < 10 then [DigitChar(m)] else Digits(m / 10) + [DigitChar(m % 10)]
  }

  /** `strconv.FormatInt(n, 10)`. */
  function FormatInt(n: int): (s: string)
    ensures |s| >= 1 && IsDigit(s[|s| - 1])
    ensures forall i :: 0 <= i < |s| ==> IsDigit(s[i]) || (i == 0 && s[i] == '-')
    ensures s[0] == '-' <==> n < 0
  {
    if n < 0 then "-" + Digits(-n) else Digits(n)
  }

  /** The outcome of `ParseUint`'s digit loop. */
  datatype UintScan = Value(n: nat) | SyntaxError | RangeError

  /** `ParseUint`'s loop for base 10: it stops with a syntax error at the first
      non-digit and with a range error as soon as the value read so far exceeds
      `maxVal`, whichever comes first. */
  function ScanDigits(s: string, acc: nat, maxVal: nat): UintScan {
    if s == [] then Value(acc)
    else if !IsDigit(s[0]) then SyntaxError
    else
      var n := acc * 10 + DigitValue(s[0]);
      if n > maxVal then RangeError else ScanDigits(s[1..], n, maxVal)
  }

  /** One more digit at the end of the input is one more step of the loop. */
  lemma {:induction false} ScanDigitsSnoc(s: string, c: char, acc: nat, maxVal: nat)
    requires IsDigit(c)
    ensures ScanDigits(s + [c], acc, maxVal) ==
      match ScanDigits(s, acc, maxVal)
      case Value(v) => if v * 10 + DigitValue(c) > maxVal then RangeError else Value(v * 10 + DigitValue(c))
      case other => other
  {
    if s == [] {
      assert ([c])[1..] == [];
    } else {
      assert (s + [c])[1..] == s[1..] + [c];
      if IsDigit(s[0]) && acc * 10 + DigitValue(s[0]) <= maxVal {
        ScanDigitsSnoc(s[1..], c, acc * 10 + DigitValue(s[0]), maxVal);
      }
    }
  }

  lemma {:induction false} ScanDigitsOfDigits(m: nat, maxVal: nat)
    requires m <= maxVal
    ensures ScanDigits(Digits(m), 0, maxVal) == Value(m)
  {
    if m >= 10 {
      ScanDigitsOfDigits(m / 10, maxVal);
      ScanDigitsSnoc(Digits(m / 10), DigitChar(m % 10), 0, maxVal);
    }
  }

  /** 2^(bitSize-1): the `cutoff` of `ParseInt`. */
  function HalfRange(bitSize: nat): (h: int)
    requires bitSize == 32 || bitSize == 64
    ensures h >= 1
  {
    if bitSize == 32 then 0x8000_0000 else 0x8000_0000_0000_0000
  }

  /** `strconv.ParseUint(s, 10, bitSize)`: a syntax error on empty input, and on
      overflow a range error (whose value `ParseInt` reads as 2^bitSize - 1). */
  function ParseUint(s: string, bitSize: nat): UintScan
    requires bitSize == 32 || bitSize == 64
  {
    if s == [] then SyntaxError else ScanDigits(s, 0, 2 * HalfRange(bitSize) - 1)
  }

  /** `strconv.ParseInt(s, 10, bitSize)` with its error ignored, as the source uses it:
      0 on a syntax error, the nearest bound on overflow, the value otherwise. */
  function ParseInt(s: string, bitSize: nat): (r: int)
    requires bitSize == 32 || bitSize == 64
    ensures -HalfRange(bitSize) <= r < HalfRange(bitSize)
  {
    if s == [] then 0
    else
      var neg := s[0] == '-';
      var body := if s[0] == '+' || s[0] == '-' then s[1..] else s;
      var cutoff: int := HalfRange(bitSize);
      match ParseUint(body, bitSize)
      case SyntaxError => 0
      case scan =>
        var un: int := if scan.Value? then scan.n else 2 * cutoff - 1;
        if !neg && un >= cutoff then cutoff - 1
        else if neg && un > cutoff then -cutoff
        else if neg then -un
        else un
  }

  /** Reading back a formatted number gives the number. */
  lemma ParseFormatRoundTrip(n: int, bitSize: nat)
    requires bitSize == 32 || bitSize == 64
    requires -HalfRange(bitSize) <= n < HalfRange(bitSize)
    ensures ParseInt(FormatInt(n), bitSize) == n
  {
    var maxVal := 2 * HalfRange(bitSize) - 1;
    var s := FormatInt(n);
    if n < 0 {
      ScanDigitsOfDigits(-n, maxVal);
      assert s[1..] == Digits(-n);
    } else {
      ScanDigitsOfDigits(n, maxVal);
    }
  }

  /** A string without a single decimal digit (an empty or a non-numeric chain id) reads as 0. */
  lemma NotDecimalReadsZero(s: string, bitSize: nat)
    requires bitSize == 32 || bitSize == 64
    ensures (forall i :: 0 <= i < |s| ==> !IsDigit(s[i])) ==> ParseInt(s, bitSize) == 0
  {
  }
}

=== FILE: swap_token_info.dfy ===
/** The swap token store of loader/swap_token_info.go: two caches of swap tokens,
    one keyed by chain name and token address and one by chain name and token
    name, each key written `chainName + "#" + value` and split back by the
    cache's fetcher before the database is asked. */
module SwapTokens {
  import opened Errors
  import opened Text
  import opened Tokens

  /** The separator between the two parts of a cache key. */
  const Separator: char := '#'

  /** The two database queries, by (chain name, token address) and by (chain
      name, token name); a missing row and a failed query are both `None`. */
  datatype SwapStore = SwapStore(
    byAddr: (string, string) -> Option<TokenInfo>,
    byName: (string, string) -> Option<TokenInfo>)

  /** A value held by an asynchronous cache: a token, or anything else. */
  datatype CacheValue = TokenValue(token: TokenInfo) | OtherValue

  /** Refresh period, whether entries expire, and expiry period, in seconds. */
  datatype CacheOptions = CacheOptions(refreshSeconds: nat, enableExpire: bool, expireSeconds: nat)

  /** Both caches refresh hourly and expire entries after 30 minutes. */
  const SwapCacheOptions: CacheOptions := CacheOptions(3600, true, 1800)

  /** An asynchronous cache: its options and the values it has fetched. */
  datatype AsyncCache = AsyncCache(options: CacheOptions, entries: map<string, CacheValue>)

  /** The manager: the address-keyed and the name-keyed cache. */
  datatype SwapTokenInfoManager = SwapTokenInfoManager(addressCache: AsyncCache, nameCache: AsyncCache)

  /** `NewSwapTokenInfoManager`: two empty caches with the swap cache options. */
  function NewSwapTokenInfoManager(): (m: SwapTokenInfoManager)
    ensures m.addressCache.options == m.nameCache.options == CacheOptions(3600, true, 1800)
    ensures m.addressCache.entries == m.nameCache.entries == map[]
  {
    SwapTokenInfoManager(AsyncCache(SwapCacheOptions, map[]), AsyncCache(SwapCacheOptions, map[]))
  }

  /** The cache key for a chain and a token address or name. */
  function ComposeKey(chainName: string, value: string): string {
    chainName + [Separator] + value
  }

  /** The fetcher both caches use, over the query it is given: a key that does
      not split into exactly two parts is invalid, a pair the store does not
      hold is not found, and otherwise the stored token is the value. */
  function Fetch(query: (string, string) -> Option<TokenInfo>, key: string): (r: Result<CacheValue>)
    ensures Count(key, Separator) != 1 ==> r == Err(Failed("invalid key: " + key))
    ensures r.Ok? ==> r.value.TokenValue?
  {
    var s := Split(key, Separator);
    if |s| != 2 then Err(Failed("invalid key: " + key))
    else match query(s[0], s[1])
      case None => Err(Failed("token not found: " + key))
      case Some(token) => Ok(TokenValue(token))
  }

  /** Splitting a composed key gives back the chain name and the value when
      neither contains the separator. */
  lemma ComposeKeySplits(chainName: string, value: string)
    requires Separator !in chainName && Separator !in value
    ensures Split(ComposeKey(chainName, value), Separator) == [chainName, value]
  {
    SplitAfterFirst(chainName, Separator, value);
    SplitWithoutSeparator(value, Separator);
  }

  /** A separator inside either part gives the key more than one separator. */
  lemma SeparatorInPartBreaksKey(chainName: string, value: string)
    requires Separator in chainName || Separator in value
    ensures Count(ComposeKey(chainName, value), Separator) >= 2
  {
    CountAppend(chainName + [Separator], value, Separator);
    CountAppend(chainName, [Separator], Separator);
    assert Count([Separator], Separator) == 1;
    if Separator in chainName {
      CountPositive(chainName, Separator);
    } else {
      CountPositive(value, Separator);
    }
  }

  /** Round trip: the fetcher asks the store about exactly the chain name and the
      value the key was composed from, and reports a miss as not found. */
  lemma FetchComposedKey(query: (string, string) -> Option<TokenInfo>, chainName: string, value: string)
    requires Separator !in chainName && Separator !in value
    ensures var key := ComposeKey(chainName, value);
      Fetch(query, key) == match query(chainName, value)
        case None => Err(Failed("token not found: " + key))
        case Some(t) => Ok(TokenValue(t))
  {
    ComposeKeySplits(chainName, value);
  }

  /** A key composed from a part holding the separator is invalid, whatever the
      store holds. */
  lemma FetchRejectsSeparatorInPart(query: (string, string) -> Option<TokenInfo>, chainName: string, value: string)
    requires Separator in chainName || Separator in value
    ensures Fetch(query, ComposeKey(chainName, value)) == Err(Failed("invalid key: " + ComposeKey(chainName, value)))
  {
    SeparatorInPartBreaksKey(chainName, value);
  }

  /** `AsyncCache.Get` with the cache's fetcher: a held value, or the fetched
      value, which is then held; a fetch error is returned and nothing is held. */
  function CacheGet(c: AsyncCache, query: (string, string) -> Option<TokenInfo>, key: string)
    : (res: (Result<CacheValue>, AsyncCache))
    ensures res.1.options == c.options
    ensures key in c.entries ==> res == (Ok(c.entries[key]), c)
    ensures key !in c.entries ==> res.0 == Fetch(query, key)
    ensures key !in c.entries ==>
      res.1.entries == if res.0.Ok? then c.entries[key := res.0.value] else c.entries
  {
    if key in c.entries then (Ok(c.entries[key]), c)
    else
      match Fetch(query, key)
      case Err(e) => (Err(e), c)
      case Ok(v) => (Ok(v), c.(entries := c.entries[key := v]))
  }

  /** Every held value is a token filed under a key of exactly two parts: what
      the fetcher can produce. */
  predicate WellFormed(c: AsyncCache) {
    forall key :: key in c.entries ==> Count(key, Separator) == 1 && c.entries[key].TokenValue?
  }

  /** A getter's answer: the token, or nothing for an error or a value of any
      other type. */
  function AsToken(v: Result<CacheValue>): (r: Option<TokenInfo>)
    ensures r.Some? <==> v.Ok? && v.value.TokenValue?
    ensures r.Some? ==> v.value.token == r.value
  {
    match v
    case Ok(TokenValue(t)) => Some(t)
    case _ => None
  }

  /** A lookup in one cache: compose the key, get it through the fetcher, and
      keep only a token. */
  function Lookup(c: AsyncCache, query: (string, string) -> Option<TokenInfo>, chainName: string, value: string)
    : (Option<TokenInfo>, AsyncCache)
  {
    var (v, c') := CacheGet(c, query, ComposeKey(chainName, value));
    (AsToken(v), c')
  }

  /** `GetByChainNameTokenAddr`: the token at a chain and address, and the
      manager with its address cache as the lookup leaves it. */
  function GetByChainNameTokenAddr(m: SwapTokenInfoManager, store: SwapStore, chainName: string, tokenAddr: string)
    : (res: (Option<TokenInfo>, SwapTokenInfoManager))
    ensures var (t, c) := Lookup(m.addressCache, store.byAddr, chainName, tokenAddr);
      res == (t, m.(addressCache := c))
  {
    var (t, c) := Lookup(m.addressCache, store.byAddr, chainName, tokenAddr);
    (t, m.(addressCache := c))
  }

  /** `GetByChainNameTokenName`: the token at a chain and name, and the manager
      with its name cache as the lookup leaves it. */
  function GetByChainNameTokenName(m: SwapTokenInfoManager, store: SwapStore, chainName: string, tokenName: string)
    : (res: (Option<TokenInfo>, SwapTokenInfoManager))
    ensures var (t, c) := Lookup(m.nameCache, store.byName, chainName, tokenName);
      res == (t, m.(nameCache := c))
  {
    var (t, c) := Lookup(m.nameCache, store.byName, chainName, tokenName);
    (t, m.(nameCache := c))
  }

  /** A lookup keeps the cache well formed. */
  lemma LookupKeepsWellFormed(c: AsyncCache, query: (string, string) -> Option<TokenInfo>, chainName: string, value: string)
    requires WellFormed(c)
    ensures WellFormed(Lookup(c, query, chainName, value).1)
  {
  }

  /** A lookup with clean parts: a held token is returned as held, and otherwise
      the store's answer for exactly that pair is returned and, when found, held
      under the key. */
  lemma LookupCleanParts(c: AsyncCache, query: (string, string) -> Option<TokenInfo>, chainName: string, value: string)
    requires WellFormed(c)
    requires Separator !in chainName && Separator !in value
    ensures var key := ComposeKey(chainName, value);
            var (t, c') := Lookup(c, query, chainName, value);
      && (key in c.entries ==> t == Some(c.entries[key].token) && c' == c)
      && (key !in c.entries ==> t == query(chainName, value))
      && (key !in c.entries && t.Some? ==> c'.entries == c.entries[key := TokenValue(t.value)])
      && (key !in c.entries && t.None? ==> c' == c)
  {
    FetchComposedKey(query, chainName, value);
  }

  /** A lookup whose chain name or value holds the separator finds nothing and
      leaves a well-formed cache unchanged, without consulting the store. */
  lemma LookupSeparatorInPart(c: AsyncCache, query: (string, string) -> Option<TokenInfo>, chainName: string, value: string)
    requires WellFormed(c)
    requires Separator in chainName || Separator in value
    ensures Lookup(c, query, chainName, value) == (None, c)
  {
    SeparatorInPartBreaksKey(chainName, value);
  }

  /** Each getter answers from its own cache and its own query: with clean parts
      and a key not yet held, the address getter returns the store's answer for
      (chain name, address) and the name getter the one for (chain name, name),
      and neither touches the other's cache. */
  lemma GettersAskTheirOwnQuery(m: SwapTokenInfoManager, store: SwapStore, chainName: string, value: string)
    requires Separator !in chainName && Separator !in value
    ensures ComposeKey(chainName, value) !in m.addressCache.entries ==>
      GetByChainNameTokenAddr(m, store, chainName, value).0 == store.byAddr(chainName, value)
    ensures ComposeKey(chainName, value) !in m.nameCache.entries ==>
      GetByChainNameTokenName(m, store, chainName, value).0 == store.byName(chainName, value)
    ensures GetByChainNameTokenAddr(m, store, chainName, value).1.nameCache == m.nameCache
    ensures GetByChainNameTokenName(m, store, chainName, value).1.addressCache == m.addressCache
  {
    FetchComposedKey(store.byAddr, chainName, value);
    FetchComposedKey(store.byName, chainName, value);
  }

  /** A held value of another type reads as nothing and stays held. */
  lemma WrongTypeReadsNothing(c: AsyncCache, query: (string, string) -> Option<TokenInfo>, chainName: string, value: string)
    requires ComposeKey(chainName, value) in c.entries && c.entries[ComposeKey(chainName, value)].OtherValue?
    ensures Lookup(c, query, chainName, value) == (None, c)
  {
  }
}

=== FILE: text.dfy ===
/** The parts of Go's `strings` package the core relies on: `TrimSpace`,
    `ToLower` (ASCII letters) and `Split` with a one-character separator. */
module Text {

  /** Go's `unicode.IsSpace`: the characters with the Unicode White_Space property. */
  predicate IsSpace(c: char) {
    var n := c as int;
    || (0x09 <= n <= 0x0D) || n == 0x20 || n == 0x85 || n == 0xA0 || n == 0x1680
    || (0x2000 <= n <= 0x200A) || n == 0x2028 || n == 0x2029 || n == 0x202F
    || n == 0x205F || n == 0x3000
  }

  predicate AllSpace(s: string) {
    forall i :: 0 <= i < |s| ==> IsSpace(s[i])
  }

  /** Neither end of `s` is white space: the strings `TrimSpace` returns. */
  predicate IsTrimmed(s: string) {
    s == [] || (!IsSpace(s[0]) && !IsSpace(s[|s| - 1]))
  }

  /** Drops the leading white space. */
  function TrimLeft(s: string): string {
    if s != [] && IsSpace(s[0]) then TrimLeft(s[1..]) else s
  }

  /** Drops the trailing white space. */
  function TrimRight(s: string): string {
    if s != [] && IsSpace(s[|s| - 1]) then TrimRight(s[..|s| - 1]) else s
  }

  /** `TrimLeft` removes a prefix of white space and stops at the first other character. */
  lemma {:induction false} TrimLeftSpec(s: string)
    ensures |TrimLeft(s)| <= |s| && TrimLeft(s) == s[|s| - |TrimLeft(s)|..]
    ensures AllSpace(s[..|s| - |TrimLeft(s)|])
    ensures TrimLeft(s) == [] || !IsSpace(TrimLeft(s)[0])
  {
    if s != [] && IsSpace(s[0]) {
      var t := s[1..];
      TrimLeftSpec(t);
      var r := TrimLeft(t);
      assert TrimLeft(s) == r;
      assert s[|s| - |r|..] == t[|t| - |r|..];
      forall i | 0 <= i < |s| - |r|
        ensures IsSpace(s[i])
      {
        if i > 0 {
          assert s[i] == t[..|t| - |r|][i - 1];
        }
      }
    }
  }

  /** `TrimRight` removes a suffix of white space and stops at the last other character. */
  lemma {:induction false} TrimRightSpec(s: string)
    ensures |TrimRight(s)| <= |s| && TrimRight(s) == s[..|TrimRight(s)|]
    ensures AllSpace(s[|TrimRight(s)|..])
    ensures TrimRight(s) == [] || !IsSpace(TrimRight(s)[|TrimRight(s)| - 1])
  {
    if s != [] && IsSpace(s[|s| - 1]) {
      var init := s[..|s| - 1];
      TrimRightSpec(init);
      var r := TrimRight(init);
      assert init[..|r|] == s[..|r|];
      assert forall i :: |r| <= i < |s| - 1 ==> s[i] == init[i];
    }
  }

  /** `strings.TrimSpace`: the longest infix of `s` with no white space at either end,
      reached by removing only white space. */
  function TrimSpace(s: string): (r: string)
    ensures IsTrimmed(r)
    ensures |r| <= |s|
  {
    var t := TrimLeft(s);
    TrimLeftSpec(s);
    TrimRightSpec(t);
    var r := TrimRight(t);
    assert r != [] ==> r[0] == t[0];
    r
  }

  /** `TrimSpace` removes only white space, from the two ends: its result is an
      infix of the input with nothing but white space before and after it. */
  lemma TrimSpaceIsInfix(s: string)
    ensures var r := TrimSpace(s);
      exists i :: 0 <= i <= |s| - |r| && r == s[i..i + |r|] && AllSpace(s[..i]) && AllSpace(s[i + |r|..])
  {
    var t := TrimLeft(s);
    TrimLeftSpec(s);
    TrimRightSpec(t);
    var r := TrimRight(t);
    var i := |s| - |t|;
    assert r == s[i..i + |r|];
    assert s[i + |r|..] == t[|r|..];
  }

  lemma TrimLeftOfSpaces(s: string)
    requires AllSpace(s)
    ensures TrimLeft(s) == []
  {
  }

  lemma {:induction false} TrimLeftPadded(p: string, w: string)
    requires AllSpace(p)
    requires w == [] || !IsSpace(w[0])
    ensures TrimLeft(p + w) == w
  {
    if p != [] {
      assert (p + w)[1..] == p[1..] + w;
      TrimLeftPadded(p[1..], w);
    } else {
      assert p + w == w;
    }
  }

  lemma {:induction false} TrimRightPadded(w: string, q: string)
    requires AllSpace(q)
    requires w == [] || !IsSpace(w[|w| - 1])
    ensures TrimRight(w + q) == w
  {
    if q != [] {
      assert (w + q)[..|w + q| - 1] == w + q[..|q| - 1];
      TrimRightPadded(w, q[..|q| - 1]);
    } else {
      assert w + q == w;
    }
  }

  /** White space around a trimmed string is exactly what `TrimSpace` removes. */
  lemma TrimSpacePadded(p: string, v: string, q: string)
    requires AllSpace(p) && AllSpace(q) && IsTrimmed(v)
    ensures TrimSpace(p + v + q) == v
  {
    if v == [] {
      assert p + v + q == p + q;
      TrimLeftOfSpaces(p + q);
    } else {
      assert p + v + q == p + (v + q);
      TrimLeftPadded(p, v + q);
      TrimRightPadded(v, q);
    }
  }

  lemma TrimSpaceOfTrimmed(s: string)
    requires IsTrimmed(s)
    ensures TrimSpace(s) == s
  {
    TrimSpacePadded([], s, []);
    assert [] + s + [] == s;
  }

  lemma TrimSpaceIdempotent(s: string)
    ensures TrimSpace(TrimSpace(s)) == TrimSpace(s)
  {
    TrimSpaceOfTrimmed(TrimSpace(s));
  }

  /** Go's `unicode.ToLower` restricted to ASCII letters. */
  function ToLowerChar(c: char): (r: char)
    ensures 'A' <= c <= 'Z' ==> 'a' <= r <= 'z' && r as int - c as int == 'a' as int - 'A' as int
    ensures !('A' <= c <= 'Z') ==> r == c
  {
    if 'A' <= c <= 'Z' then (c as int - 'A' as int + 'a' as int) as char else c
  }

  /** Lower-casing a character keeps it white space or not white space. */
  lemma ToLowerCharKeepsSpace(c: char)
    ensures IsSpace(ToLowerChar(c)) == IsSpace(c)
  {
  }

  /** `strings.ToLower` on ASCII text. */
  function ToLower(s: string): (r: string)
    ensures |r| == |s|
  {
    seq(|s|, i requires 0 <= i < |s| => ToLowerChar(s[i]))
  }

  /** Each character of the lower-case form is the lower-case form of a character. */
  lemma ToLowerAt(s: string, i: nat)
    requires i < |s|
    ensures ToLower(s)[i] == ToLowerChar(s[i])
  {
  }

  /** Lower-casing neither adds nor removes white space, so it keeps a string trimmed. */
  lemma ToLowerKeepsTrimmed(s: string)
    ensures IsTrimmed(ToLower(s)) == IsTrimmed(s)
  {
    if s != [] {
      ToLowerAt(s, 0);
      ToLowerAt(s, |s| - 1);
      ToLowerCharKeepsSpace(s[0]);
      ToLowerCharKeepsSpace(s[|s| - 1]);
    }
  }

  /** Two strings with the same lower-case form are both trimmed or both not. */
  lemma SameLowerSameTrim(u: string, v: string)
    requires ToLower(u) == ToLower(v)
    ensures IsTrimmed(u) == IsTrimmed(v)
  {
    ToLowerKeepsTrimmed(u);
    ToLowerKeepsTrimmed(v);
  }

  /** Number of occurrences of `c` in `s`. */
  function Count(s: string, c: char): nat {
    if s == [] then 0 else (if s[0] == c then 1 else 0) + Count(s[1..], c)
  }

  /** `strings.Split(s, string(sep))`: one more part than there are separators,
      none of which contains the separator. */
  function Split(s: string, sep: char): (parts: seq<string>)
    ensures |parts| == Count(s, sep) + 1
    ensures forall i :: 0 <= i < |parts| ==> sep !in parts[i]
  {
    if s == [] then [[]]
    else
      var rest := Split(s[1..], sep);
      if s[0] == sep then [[]] + rest
      else [[s[0]] + rest[0]] + rest[1..]
  }

  /** `strings.Join(parts, string(sep))`. */
  function Join(parts: seq<string>, sep: char): string
    requires |parts| >= 1
  {
    if |parts| == 1 then parts[0] else parts[0] + [sep] + Join(parts[1..], sep)
  }

  /** Splitting loses nothing: joining the parts gives the string back. */
  lemma {:induction false} JoinSplit(s: string, sep: char)
    ensures Join(Split(s, sep), sep) == s
  {
    if s != [] {
      var rest := Split(s[1..], sep);
      JoinSplit(s[1..], sep);
      if s[0] == sep {
        assert Split(s, sep)[1..] == rest;
        assert s == [sep] + s[1..];
      } else if |rest| == 1 {
        assert s == [s[0]] + s[1..];
      } else {
        var parts := Split(s, sep);
        assert parts[1..] == rest[1..];
        assert s == [s[0]] + s[1..];
      }
    }
  }

  lemma {:induction false} SplitWithoutSeparator(s: string, sep: char)
    requires sep !in s
    ensures Split(s, sep) == [s]
  {
    if s != [] {
      SplitWithoutSeparator(s[1..], sep);
      assert [s[0]] + s[1..] == s;
    }
  }

  /** A first part free of the separator comes out of `Split` unchanged. */
  lemma {:induction false} SplitAfterFirst(a: string, sep: char, b: string)
    requires sep !in a
    ensures Split(a + [sep] + b, sep) == [a] + Split(b, sep)
  {
    if a == [] {
      assert a + [sep] + b == [sep] + b;
      assert ([sep] + b)[1..] == b;
    } else {
      var s := a + [sep] + b;
      assert s[1..] == a[1..] + [sep] + b;
      SplitAfterFirst(a[1..], sep, b);
      assert [a[0]] + a[1..] == a;
    }
  }

  lemma {:induction false} CountAppend(a: string, b: string, c: char)
    ensures Count(a + b, c) == Count(a, c) + Count(b, c)
  {
    if a != [] {
      assert (a + b)[1..] == a[1..] + b;
      CountAppend(a[1..], b, c);
    } else {
      assert a + b == b;
    }
  }

  lemma {:induction false} CountPositive(s: string, c: char)
    requires c in s
    ensures Count(s, c) >= 1
  {
    if s[0] != c {
      CountPositive(s[1..], c);
    }
  }
}

=== FILE: tokens.dfy ===
/** Records shared by the RPC backends and the swap token store: the token
    identity record (loader.TokenInfo; the loader file that declares it is not
    part of this model, so only the fields the core reads or writes appear),
    and the outcome of a transaction-status query. */
module Tokens {
  import opened Ints
  import opened Errors

  datatype TokenInfo = TokenInfo(
    TokenName: string,
    ChainName: string,
    TokenAddress: string,
    Decimals: int32,
    FullName: string,
    TotalSupply: int,
    Url: string,
    Icon: string)

  /** The `(bool, int64, error)` triple of `IsTxSuccess`. */
  datatype TxOutcome = TxOutcome(success: bool, block: int64, err: Option<Error>)

  /** The per-backend token cache (`loader.TokenInfoManager`), keyed by chain
      name and token address. */
  type TokenCache = map<(string, string), TokenInfo>

  /** The key `AddTokenInfo` files a token under. */
  function CacheKey(t: TokenInfo): (string, string) {
    (t.ChainName, t.TokenAddress)
  }

  /** Every cached token is filed under its own chain name and address. */
  predicate CacheCoherent(cache: TokenCache) {
    forall k :: k in cache ==> CacheKey(cache[k]) == k
  }
}
